=== FILE: README.md ===
# Admission webhook policy core in Dafny

A model of the policy-decision core of a Kubernetes admission webhook written
in Python. The webhook runs two ordered chains over the admission request.

- The **validator chain** runs a configured list of rules, each behind the
  same envelope checks. The rules come from three validators:
  - the security-context rule;
  - the image-policy rule;
  - the resource-requirements rule.

  The chain stops at the first rule that denies and gathers the other rules'
  warnings in order. It is modelled for any list of the three rules. The
  application's `/validate` endpoint (`src/app/main.py:126-135`) configures
  only the security-context rule.
- The **mutator chain** runs three mutators, each editing the one object of
  the request in place. The application's `/mutate` endpoint configures all
  three (`src/app/main.py:169-187`):
  - merge default labels and annotations;
  - replace the pod and container security contexts;
  - add default resources where a container has none.

  The chain stops at the first mutator that does not report a mutation.

`validators/security.py` also carries older versions of the image and
resource rules, with their own typed `validate`. They are modelled
separately, and lemmas show where the two image rules disagree.

The resource object is schema-less. It is the recursive JSON value
`Json.Json`: null, bool, int, string, list, or string-keyed dict. Python's
behaviour on it is written out:

- truthiness;
- `dict.get` with a default, `in`, subscripts and item assignment;
- iteration, where a dict or a string yields `str` values;
- `== 0`, which also holds of `False`.

Every operation that raises in Python yields a `Py.PyError` carrying the
exception's text. A rule's `except` turns that text into a denial. A
mutator's `except` turns it into an unmutated result with that message.

Modules follow the source files:

| module | source |
|---|---|
| `Py`, `Json`, `Strings` | the Python operations the core uses |
| `Admission` | request kinds and where each kind keeps its pod spec |
| `ValidatorBase` | `src/validators/base.py` |
| `PodRules` | the `_validate` preamble and container loop shared by the dict-based rules |
| `Security` | `src/validators/security.py` |
| `ImagePolicy` | `src/validators/image_policy.py` |
| `ResourceRequirements` | `src/validators/resource_requirements.py` |
| `Validators` | the three validators and a chain over any list of them |
| `MutatorBase` | `MutationResult`, `MutationPatch` and `encode_patches` of `src/mutators/base.py` |
| `Defaults` | `src/mutators/defaults.py` |
| `MutatorChain` | `MutatorChain.mutate` of `src/mutators/base.py` |

Three behaviours of the code are easy to misread, and the model follows
the code in each:

- The corrected chain (`MutatorChain.Chain`) returns `mutated=true` whenever
  every mutator succeeds, even if nothing changed. Running it on an
  already-compliant object is therefore not a no-op that reports
  `mutated=false`. As written, the chain raises in that case instead (see
  "## Findings").
- There is no before/after tree diff and no JSON Patch generation. The chain
  collects the objects its mutators returned.
- The code does not make the chain as a whole idempotent. The model proves
  instead that each mutator applied to its own result gives the same result.

## Model

| member | source | states |
|---|---|---|
| Admission.EnvelopeSupported | src/validators/security.py:55-61 | The validators support exactly the envelopes whose `request.kind.kind` is the string "Pod" or "Deployment"; a missing level, a non-dict level or any other value means unsupported |
| Admission.LocatePodSpec | src/mutators/defaults.py:112-116 | A Pod's pod spec is its `spec` entry (an empty dict when absent); a Deployment's is the `spec` entry of `spec.template` |
| Admission.StorePodSpec | src/mutators/defaults.py:126-129 | Storing a Pod's pod spec sets `spec`. Storing a Deployment's succeeds exactly when `spec` and `spec.template` are dicts, and then replaces only `spec.template.spec` |
| Admission.LocateAfterStore | src/mutators/defaults.py:112-129 | For both kinds, reading the pod spec back after storing it returns the stored value |
| Admission.StoreAgain | src/mutators/defaults.py:126-129 | Storing the same pod spec a second time changes nothing |
| Admission.StoreAfterLocate | src/mutators/defaults.py:112-129 | Once the pod spec was found, storing fails only for a Deployment missing `spec` or `spec.template`, with the KeyError of that key |
| ValidatorBase.BaseValidate | src/validators/base.py:22-37 | An empty envelope or one without `request` is denied as an invalid format. An empty inner request or one without `object` is denied as missing the object, and only after the envelope check. An unsupported request is allowed as "does not support" without running the rule. Otherwise the result is exactly the rule on the inner request. An allowance implies a well-formed envelope |
| ValidatorBase.RunChain | src/validators/base.py:67-80 | The chain allows exactly when no supporting validator denies; an allowance carries no message; a denial is the unchanged result of some supporting validator |
| ValidatorBase.ChainReturnsFirstDenial | src/validators/base.py:73-75 | The chain's result is the result of the first supporting validator that denies |
| ValidatorBase.ChainGathersWarnings | src/validators/base.py:67-80 | With no denial, the chain allows with the in-order concatenation of the supporting validators' warnings, or None when that is empty (so an empty chain allows with None) |
| ValidatorBase.ChainSkipsUnsupported | src/validators/base.py:69-73 | `validate` is never consulted for an unsupporting validator: changing it there does not change the chain's result |
| ValidatorBase.ChainIgnoresLaterValidators | src/validators/base.py:73-75 | After a denial no later validator runs: appending validators does not change the result |
| Validators.Supports | src/validators/image_policy.py:52-58 | Each chained validator supports a request iff its kind is Pod or Deployment |
| Validators.Validate | src/validators/base.py:22-37 | A chained validator on a well-formed supported envelope is its rule on the inner request; any other allowance is the "does not support" answer; it never reports warnings |
| Validators.Chain | src/validators/base.py:57-80 | The validator chain allows iff no validator denies, and then with no message and no warnings |
| Validators.UnsupportedKindPasses | src/validators/base.py:69-71 | A request of any kind other than Pod or Deployment passes the whole chain |
| Validators.NothingCollected | src/validators/base.py:77-78 | None of the three rules produces warnings, so the chain gathers none |
| PodRules.ReadPod | src/validators/security.py:23-28 | A missing, empty or spec-less object yields no spec; a dict path to `spec` yields that spec and its `containers` (an empty list when absent) |
| PodRules.FirstViolation | src/validators/image_policy.py:21-42 | The container loop reports nothing iff every container passes; otherwise it reports the outcome of the first container, in declaration order, that does not pass |
| PodRules.ScanContainers | src/validators/resource_requirements.py:31-32 | A list of containers is scanned item by item. An empty dict or empty string is scanned as nothing. A non-empty one fails on the first `str` element's `get`. A scalar is not iterable |
| PodRules.ScanPod | src/validators/resource_requirements.py:21-78 | A spec-less object gives "Invalid pod specification". An allowance is the rule's "passed" message. With a list of containers, the rule allows iff every container passes |
| PodRules.ScanPodFirstFinding | src/validators/resource_requirements.py:31-70 | The first container in declaration order with a finding decides the denial message |
| Security.CheckContainer | src/validators/security.py:34-49 | Per container, the checks run privileged, then root, then read-only root. A container without `securityContext` fails only the read-only check. A root denial implies `runAsUser` equals 0. A non-dict container raises on `get` |
| Security.ValidateSecurity | src/validators/security.py:20-53 | A spec-less object is denied as an invalid pod spec. An enforced truthy `hostNetwork` is denied before any container is examined. An allowance is "Security context validation passed" and implies the host-network check passed. Past that check, a spec whose containers form a list is allowed exactly when every container passes `CheckContainer` |
| Security.SecurityFirstViolation | src/validators/security.py:34-49 | Past the host-network check, the first violating container in declaration order decides the message |
| Security.SecurityAllFlagsOff | src/validators/security.py:51 | With every enforce flag off, every spec whose containers are dicts passes |
| Security.LegacyPodRule | src/validators/security.py:105-128 | As intended (as written they always deny; see "## Left out"), the older rules allow any kind other than Pod or Deployment. Otherwise they look up the pod spec by kind and allow, with no message, iff every container passes |
| Security.LegacyFirstFinding | src/validators/security.py:116-123 | For the older rules, the first container in declaration order with a finding decides the denial |
| Security.ValidateImage | src/validators/security.py:91-103 | The older image check passes iff the registry is accepted and the image is not refused for `:latest`. The registry is the text before the first `/`. It is accepted when the allow-list is empty or contains it. The registry is checked before the tag, and the tag check is only the `:latest` substring test |
| Security.LegacyUntaggedImageKeepsTag | src/validators/security.py:100-101 | An image without any `:` is never refused by the older rule for its tag |
| Security.ImageCheck | src/validators/security.py:117-118 | A string image gets the older image check; with an allow-list, a non-string image raises at `split` |
| Security.LegacyImageContainer | src/validators/security.py:116-123 | A dict container with a string image gets the older check's finding prefixed with its quoted name; a non-dict container raises |
| Security.LegacyValidateImages | src/validators/security.py:105-128 | As intended (as written it always denies; see "## Left out"), the older image rule allows unsupported kinds, and every allowance carries no message |
| Security.LegacyImagesDefaultAllow | src/validators/security.py:86-103 | With the constructor defaults (no allow-list, latest tag allowed), every container with a string image is accepted |
| Security.CompareResource | src/validators/security.py:174-177 | The source's comparison is an unimplemented stub returning `True`, so it accepts every pair of values |
| Security.BoundCheck | src/validators/security.py:155-170 | A min/max bound check never reports a finding; it raises exactly when its bound is set and the side it reads is not a dict |
| Security.ValidateResources | src/validators/security.py:144-172 | The only finding is "Resource limits are required". It is reported exactly when limits are enforced and `resources.limits` is falsy. With dict sections, nothing else is reported |
| Security.LegacyResourceContainer | src/validators/security.py:190-196 | A container's finding is the missing-limits message prefixed with its quoted name, and it passes exactly when the resource check passes |
| Security.LegacyValidateResources | src/validators/security.py:179-201 | As intended (as written it always denies; see "## Left out"), the older resource rule allows unsupported kinds, and every allowance carries no message |
| Security.LegacyResourcesDefaultAllow | src/validators/security.py:133-172 | With the constructor defaults, every container whose resources, limits and requests are dicts is accepted |
| ImagePolicy.NewImagePolicy | src/validators/image_policy.py:7-9 | A None or empty allow-list becomes `["docker.io"]`, a non-empty one is kept, and the allow-list is never empty |
| ImagePolicy.RegistryOf | src/validators/image_policy.py:30 | The registry is the proper prefix before the first `/` when there is one, and "docker.io" otherwise |
| ImagePolicy.ImageFinding | src/validators/image_policy.py:22-42 | A string image passes iff it is non-empty, its registry is allowed, and (when the latest tag is refused) it neither contains `:latest` nor lacks a `:`. An empty image is reported before the registry, and the registry before the tag |
| ImagePolicy.RegistryCheck | src/validators/image_policy.py:30-35 | The registry of a string image is checked against the allow-list, and a scalar image raises at `in` |
| ImagePolicy.TagCheck | src/validators/image_policy.py:38-42 | When the latest tag is refused, a string image is refused iff it contains `:latest` or has no `:` |
| ImagePolicy.CheckImageValue | src/validators/image_policy.py:23-42 | A string image gets its image finding, and a truthy scalar image raises |
| ImagePolicy.CheckImage | src/validators/image_policy.py:21-27 | A container without `image` has no image specified; a dict container with a string image gets its finding; a non-dict container raises |
| ImagePolicy.ValidateImages | src/validators/image_policy.py:11-50 | A spec-less object is an invalid pod spec; an allowance is "Image policy validation passed"; with a list of containers the rule allows iff every container's image passes |
| ImagePolicy.ImageFirstFinding | src/validators/image_policy.py:21-44 | The first container in declaration order whose image is refused decides the message |
| ImagePolicy.AcceptedImageIsTagged | src/validators/image_policy.py:38-42 | When the latest tag is refused, an accepted image has a `:` and does not say `:latest` |
| ImagePolicy.UntaggedImageRulesDisagree | src/validators/image_policy.py:38 | Refusing the latest tag, the older rule accepts the untagged `nginx`, while this rule refuses it by default |
| ImagePolicy.RegistrylessImageRulesDisagree | src/validators/image_policy.py:30 | Allowing only docker.io, the older rule refuses `nginx:1.25` as a registry name, while this rule accepts it |
| ResourceRequirements.FirstMissing | src/validators/resource_requirements.py:43-70 | No entry is missing iff every presence check holds; otherwise the one named is a check that fails |
| ResourceRequirements.PresenceChecks | src/validators/resource_requirements.py:43-70 | Presence is checked in the order CPU limits, memory limits, CPU requests, memory requests, and the first missing entry names the message; a scalar `limits` raises |
| ResourceRequirements.CheckResources | src/validators/resource_requirements.py:31-70 | With enforcement, empty or missing resources fail first, then the presence checks decide. Without enforcement, dict resources always pass. A non-dict container raises |
| ResourceRequirements.ValidateResourceRequirements | src/validators/resource_requirements.py:21-78 | A spec-less object is an invalid pod spec; an allowance is "Resource requirements validation passed"; with a list of containers the rule allows iff every container passes |
| ResourceRequirements.ResourceFirstFinding | src/validators/resource_requirements.py:31-72 | The first failing container in declaration order decides the message |
| ResourceRequirements.LenientResourcesAllow | src/validators/resource_requirements.py:34-72 | With enforcement off, every spec whose containers and their resources are dicts is allowed |
| ResourceRequirements.ResourceChecksReadOnlyKeys | src/validators/resource_requirements.py:45-66 | Only key presence matters: containers with the same name and the same keys get the same finding, whatever the values |
| MutatorBase.PatchDict | src/mutators/base.py:58 | A patch becomes a dict with `op` and `path`, and with `value` exactly when it is not None |
| MutatorBase.PatchDicts | src/mutators/base.py:58 | The list of patch dicts has one entry per patch, in patch order |
| MutatorBase.PatchDictRoundTrip | src/mutators/base.py:8-12 | Dropping a None value loses nothing: the patch reads back from its dict |
| MutatorBase.PatchDictsRoundTrip | src/mutators/base.py:58 | The list of patch dicts reads back to the same patches in the same order |
| Defaults.Outcome | src/mutators/defaults.py:15-57 | A mutator reports a mutation exactly when the kind is Pod or Deployment and its edit went through. It returns the edited object only then, and the exception's text only when the edit raised; any other kind gets neither |
| Defaults.EditContainers | src/mutators/defaults.py:122-124 | A list of containers is edited item by item, and succeeds iff every edit does. A dict or string succeeds, unchanged, exactly when the loop body skips every key or character it visits, and otherwise fails assigning into a `str`. A scalar is not iterable |
| Defaults.EditContainersTwice | src/mutators/defaults.py:169-172 | An edit idempotent on the containers it accepts keeps the containers loop idempotent |
| Defaults.EditPodSpec | src/mutators/defaults.py:112-129 | The edit succeeds exactly when the pod spec is found, the edit of it succeeds and it can be stored back. The result is the edited pod spec stored back where the kind keeps it, so reading it again gives the edited pod spec. The object gains at most `spec`. For a Deployment every other entry of `spec`, and every other entry of `spec.template`, is unchanged |
| Defaults.EditPodSpecTwice | src/mutators/defaults.py:112-129 | Editing the stored pod spec again with an idempotent edit changes nothing |
| Defaults.Update | src/mutators/defaults.py:25 | The update's keys are the old keys plus the defaults; the defaults overwrite same-named keys and other keys are kept |
| Defaults.UpdateTwice | src/mutators/defaults.py:24-26 | Updating a second time with the same defaults changes nothing |
| Defaults.MergeKey | src/mutators/defaults.py:23-26 | The merge succeeds iff there are no defaults or the entry is a dict (or absent). On success the entry becomes the merged dict (left alone with no defaults) and every other entry is kept. On failure, `update` is missing |
| Defaults.MergeKeyTwice | src/mutators/defaults.py:23-32 | Merging an entry a second time changes nothing |
| Defaults.MergeMetadata | src/mutators/defaults.py:19-34 | With no defaults the metadata is returned unchanged. Otherwise non-dict metadata raises. For dict metadata, labels and annotations are each merged and every other entry is kept |
| Defaults.MergeMetadataTwice | src/mutators/defaults.py:19-34 | Merging metadata a second time changes nothing |
| Defaults.LabelTemplate | src/mutators/defaults.py:37-52 | A Deployment without `spec` fails with a KeyError on `spec`. The step succeeds exactly when `spec` is a dict, its template (`{}` when absent) is a dict and the template metadata merges. Then `spec.template.metadata` becomes the merged metadata, and nothing else in the object changes |
| Defaults.LabelTemplateTwice | src/mutators/defaults.py:37-52 | Merging into the template a second time changes nothing |
| Defaults.Labelled | src/mutators/defaults.py:16-52 | `metadata` is always stored back merged. For a Pod, nothing else changes. A Deployment without `spec` fails on `spec` after the metadata merge |
| Defaults.LabelsMutate | src/mutators/defaults.py:13-57 | Unsupported kinds are not mutated and get no message. A mutation returns no message and an object whose `metadata` is the old metadata with labels and annotations merged. A failure on a supported kind returns a message and no object |
| Defaults.LabelsMutateMerges | src/mutators/defaults.py:19-54 | After a mutation, `metadata` is the old metadata merged. For a Pod nothing else changes. For a Deployment, `spec.template.metadata` is the old template metadata merged, and nothing outside `metadata` and `spec.template` changes |
| Defaults.TemplateMetadataMerged | src/mutators/defaults.py:37-52 | On a Deployment, the template metadata after a mutation is the old template metadata (`{}` when absent) merged with the defaults |
| Defaults.LabelsAfterMerge | src/mutators/defaults.py:23-26 | With some default labels, the labels after a metadata merge are the old labels updated with the defaults |
| Defaults.MergedLabels | src/mutators/defaults.py:23-26 | With some default labels, the merged labels are the old keys plus the defaults; the defaults win and other labels are kept |
| Defaults.LabelsMerged | src/mutators/defaults.py:23-34 | On a Pod, the resulting labels are the old keys plus the defaults; the defaults win and other labels are kept |
| Defaults.TemplateLabelsMerged | src/mutators/defaults.py:37-52 | On a Deployment, the pod template's labels are the old template keys plus the defaults; the defaults win and other template labels are kept |
| Defaults.NoLabelsStillMutated | src/mutators/defaults.py:34-54 | With no defaults a Pod is still reported mutated, and only `metadata` is set |
| Defaults.LabelsDeploymentWithoutSpec | src/mutators/defaults.py:37-57 | A Deployment without `spec` is not mutated and gets the KeyError message |
| Defaults.LabelsTwice | src/mutators/defaults.py:13-57 | Applying the labels mutator to its own result gives the same result |
| Defaults.ContainerSecurityContext | src/mutators/defaults.py:73-87 | The container context holds `runAsNonRoot`, `readOnlyRootFilesystem` and `allowPrivilegeEscalation: false`. It holds `runAsUser` and `runAsGroup` exactly when configured. It never holds `fsGroup` |
| Defaults.PodSecurityContext | src/mutators/defaults.py:89-104 | The pod context holds `runAsNonRoot`, and holds `runAsUser`, `runAsGroup` and `fsGroup` exactly when each is configured |
| Defaults.SecureSpec | src/mutators/defaults.py:119-124 | The pod spec's `securityContext` is replaced wholesale, every container's context is replaced by the container default, and every other entry is kept |
| Defaults.SetContainerContextTwice | src/mutators/defaults.py:124 | Replacing a container's context twice replaces it once |
| Defaults.SecureSpecTwice | src/mutators/defaults.py:119-124 | Securing an already secured pod spec changes nothing |
| Defaults.SecurityMutate | src/mutators/defaults.py:106-134 | Unsupported kinds are not mutated. A mutation stores the secured pod spec where the kind keeps it and leaves every entry but `spec` alone. For a Deployment, the other entries of `spec` and of `spec.template` are kept too. A failure returns a message |
| Defaults.SecurityMutatesWellFormed | src/mutators/defaults.py:106-131 | A Pod or Deployment whose pod spec is a dict with a list of dict containers, and whose `spec.template` exists for a Deployment, is reported mutated |
| Defaults.SecurityTwice | src/mutators/defaults.py:106-134 | Applying the security-context mutator to its own result gives the same result |
| Defaults.DefaultResources | src/mutators/defaults.py:144-154 | The default resources hold `requests` and `limits` exactly when each default is non-empty |
| Defaults.AddResources | src/mutators/defaults.py:171-172 | A dict container with `resources` is untouched (even `{}`); one without gets the defaults; a string container is untouched iff it contains "resources" |
| Defaults.AddResourcesTwice | src/mutators/defaults.py:171-172 | Adding resources to a container twice adds them once |
| Defaults.ResourceSpec | src/mutators/defaults.py:169-172 | Only the containers change: exactly the dict containers without `resources` get the defaults |
| Defaults.ResourceSpecTwice | src/mutators/defaults.py:169-172 | Adding resources a second time changes nothing |
| Defaults.ResourcesMutate | src/mutators/defaults.py:156-182 | Unsupported kinds are not mutated. A mutation stores the edited pod spec where the kind keeps it and leaves every entry but `spec` alone. For a Deployment, the other entries of `spec` and of `spec.template` are kept too. A failure returns a message |
| Defaults.ResourcesMutatesWellFormed | src/mutators/defaults.py:156-179 | A Pod or Deployment whose pod spec is a dict with a list of dict containers, and whose `spec.template` exists for a Deployment, is reported mutated |
| Defaults.ResourcesTwice | src/mutators/defaults.py:156-182 | Applying the resources mutator to its own result gives the same result |
| MutatorChain.Mutate | src/mutators/base.py:83 | A mutated result carries a non-empty object and no message; an unmutated one carries no object |
| MutatorChain.Thread | src/mutators/base.py:77-88 | For any step whose results have the shape `Mutate` reports, the loop stops only on an unmutated result. Otherwise it collects one dict per mutator, and the last one is the object the run ends with |
| MutatorChain.ThreadOne | src/mutators/base.py:79-88 | A single mutator ends the run with its own result when unmutated; otherwise its object is the only collected one and the one the run ends with |
| MutatorChain.ThreadTwo | src/mutators/base.py:79-88 | After a mutated first step, the second mutator is handed the first one's object, and both objects are collected in order |
| MutatorChain.ThreadComposes | src/mutators/base.py:79-88 | Running two lists of mutators in turn is running their concatenation, the second starting from where the first ended |
| MutatorChain.Chain | src/mutators/base.py:67-90 | The chain is unmutated only when a mutator stopped it. A mutated result has no message and one collected object per mutator, or None for an empty chain |
| MutatorChain.ChainEndsWithFinalObject | src/mutators/base.py:87-90 | The last collected object is the object after every mutator has run |
| MutatorChain.ChainOfTwo | src/mutators/base.py:79-88 | The second mutator runs on the object the first returned |
| MutatorChain.ThreadStopsAt | src/mutators/base.py:83-85 | For any step whose results have the shape `Mutate` reports, the first unmutated result ends the run unchanged, whatever steps follow |
| MutatorChain.ChainStopsAtFirstFailure | src/mutators/base.py:83-85 | The first unmutated result is the chain's answer, unchanged, and the later mutators do not matter |
| MutatorChain.ChainAsWritten | src/mutators/base.py:90 | As written, the chain raises exactly when a non-empty chain runs to completion, and otherwise answers as the corrected chain |
| MutatorChain.ChainAsWrittenNeverMutates | src/mutators/base.py:90 | As written, a non-empty chain never returns a mutated result: it raises exactly where the corrected chain reports one |
| MutatorChain.EmptyPodChainRaises | src/mutators/base.py:90 | One labels mutator without defaults on an empty Pod object makes the chain as written raise, while the corrected chain returns the object with empty `metadata` |

## Left out

- Everything in `src/app/main.py` is not part of this model: HTTP routes, middleware, rate limiting, metrics and process signals are I/O plumbing.
- Configuration and logging (`src/app/config.py`, `src/config.py`, `src/utils/logging.py`) are not part of this model. Each validator and mutator takes its constructor arguments as an immutable record.
- The pydantic schemas of `src/schemas/admission.py` are not part of this model. The mutators' request is the typed `Admission.Request` of a kind string and an object dict.
- The mutators read the kind through attribute access on a field the schema types as a dict (`request.request.kind.kind`). The model reads the kind string directly.
- Security.LegacyPodRule, Security.LegacyValidateImages, Security.LegacyValidateResources: these model what the typed `validate` overrides at `src/validators/security.py:105-128` and `179-201` evidently mean to do, reading the kind string directly. As written, each override reads `request.request.kind.kind`, and the schema types `kind` as a dict (`src/schemas/admission.py:19`). On a typed request that read raises "'dict' object has no attribute 'kind'"; on a plain dict it raises "'dict' object has no attribute 'request'". The `except` at line 127 or 200 turns either error into a denial carrying its text, so as written these rules deny every request.
- The typed `validate` override of `SecurityContextValidator` (`src/validators/security.py:63-81`) is not modelled. As written it passes the inner request where `supports` expects the envelope, and hands `_validate` the object instead of the request. The chained security validator is modelled as the base-class `validate` around `_validate`, which is what the override evidently means to do.
- MutatorChain.Chain, MutatorChain.ChainOfTwo: each collected entry is modelled as the value of the object right after its mutator. In the source, building a `MutationResult` copies only the top-level dict. The nested dicts (`metadata`, `spec` and what lies below them) stay shared with the request's object, so a later mutator's in-place edits also show in earlier entries. Example: a labels mutator and then the security mutator, on a Pod `{"spec": {"containers": [{"name": "a"}]}}`. The source's first entry ends up with the container's `securityContext`, and the model's first entry has none. Modelling the sharing needs object identity, which the value type `Json` does not have. The last entry is not affected (`MutatorChain.ChainEndsWithFinalObject`).
- The object left half-edited after a mutator raised is not modelled: the chain discards it along with the result.
- `encode_patches` is modelled only in the step that drops None fields; base64 and `json.dumps` are library serialisation.
- Floats are not modelled: JSON numbers are integers.
- `str()` of a list or dict is rendered as a placeholder. It is used when a container's `name` is a list or dict, and when an `image` that reaches the tag check (`ImagePolicy.TagOutcome`) is one. For example, the source prints `['nginx']` where the model prints `[...]`. The placeholder stands in because dict insertion order is not modelled.
- Exception texts follow CPython 3.11 wording.
- The default CPU and memory quantities of `ResourceRequirementsValidator` are kept in `ResourceRequirements.ResourceConfig`, but nothing in the code reads them.
- Parsing and comparing resource quantities are not modelled: `_compare_resource` is a stub that accepts everything.
- Mutator `supports`: no mutator overrides the base-class `supports`, which is always true, so the chain never skips one. `MutatorChain.Thread` has no skip step.
- MutatorChain.Chain: idempotence is proved per mutator (`Defaults.LabelsTwice`, `Defaults.SecurityTwice`, `Defaults.ResourcesTwice`), not for a whole chain, whose mutators would also have to commute.
- Several tests in the repository expect messages or outcomes that the code does not produce. The model follows the code, except for the older typed `validate` overrides described above.

## Findings

| source | as written | input that shows it | evidently intended | confidence | as-written member | corrected member |
|---|---|---|---|---|---|---|
| src/mutators/base.py:90 | `MutatorChain.mutate` passes its list of collected objects as `patched`, a field `MutationResult` declares `Optional[Dict[str, Any]]` (line 17), so pydantic raises a validation error whenever a non-empty chain runs to completion | one `DefaultLabelsAnnotationsMutator` with no defaults, on a Pod whose object is `{}` | return the list of collected objects as `patched` | not executed | MutatorChain.ChainAsWritten | MutatorChain.Chain |

=== FILE: admission.dfy ===
/** The admission request as the rules and mutators see it, the resource
    kinds they act on, and where a kind keeps its pod specification: at
    `spec` for a Pod, at `spec.template.spec` for a Deployment. */
module Admission {
  import opened Py
  import opened Json

  const Pod := "Pod"
  const Deployment := "Deployment"

  /** The typed request handed to the mutators: the resource kind as a plain
      tag and the candidate object, which the request schema types as a dict.
      The uid, operation and user fields are only forwarded by the caller. */
  datatype Request = Request(kind: string, obj: map<string, Json>)

  /** `kind in ["Pod", "Deployment"]`. */
  predicate SupportedKind(kind: string) {
    kind == Pod || kind == Deployment
  }

  /** The `supports` of the three dict-based validators: the value at
      `request.kind.kind` of the envelope, read with a default at each step,
      must be "Pod" or "Deployment"; any exception on the way answers
      false. */
  function EnvelopeSupported(envelope: Json): (r: bool)
    ensures r <==> Lookup(envelope, ["request", "kind", "kind"]) in {Some(JStr(Pod)), Some(JStr(Deployment))}
  {
    var path := ["request", "kind", "kind"];
    assert path[1..] == ["kind", "kind"] && path[1..][1..] == ["kind"] && path[1..][1..][1..] == [];
    match Get(envelope, "request", EmptyDict)
    case Err(_) => false
    case Ok(request) =>
      match Get(request, "kind", EmptyDict)
      case Err(_) => false
      case Ok(kind) =>
        match Get(kind, "kind", JStr(""))
        case Err(_) => false
        case Ok(k) => k == JStr(Pod) || k == JStr(Deployment)
  }

  /** `obj.get("spec", {})`, followed for a Deployment by
      `.get("template", {}).get("spec", {})`. */
  function LocatePodSpec(kind: string, obj: map<string, Json>): (r: Result<Json>)
    ensures kind != Deployment ==> r == Ok(if "spec" in obj then obj["spec"] else EmptyDict)
    ensures (kind == Deployment && "spec" in obj && obj["spec"].JObj? && "template" in obj["spec"].fields
             && obj["spec"].fields["template"].JObj?) ==> r == Get(obj["spec"].fields["template"], "spec", EmptyDict)
  {
    var spec := if "spec" in obj then obj["spec"] else EmptyDict;
    if kind == Deployment then
      var template :- Get(spec, "template", EmptyDict);
      Get(template, "spec", EmptyDict)
    else
      Ok(spec)
  }

  /** Assigns the pod spec back into the object: at `spec` for a Pod, and
      otherwise at `spec.template.spec`, indexing (not defaulting) the two
      dicts on the way. */
  function StorePodSpec(kind: string, obj: map<string, Json>, podSpec: Json): (r: Result<map<string, Json>>)
    ensures kind == Pod ==> r == Ok(obj["spec" := podSpec])
    ensures kind != Pod ==> (r.Ok? <==> "spec" in obj && obj["spec"].JObj? && "template" in obj["spec"].fields
                                        && obj["spec"].fields["template"].JObj?)
    ensures kind != Pod && r.Ok? ==>
              r.value == obj["spec" := JObj(obj["spec"].fields["template" :=
                           JObj(obj["spec"].fields["template"].fields["spec" := podSpec])])]
  {
    if kind == Pod then Ok(obj["spec" := podSpec])
    else
      var spec :- GetItem(JObj(obj), "spec");
      var template :- GetItem(spec, "template");
      var template' :- SetItem(template, "spec", podSpec);
      Ok(obj["spec" := JObj(spec.fields["template" := template'])])
  }

  /** Writes `value` back under `key` when `v` is a dict already holding the
      key: an in-place edit of a value found in the object reaches the object,
      while an edit of a fresh default (`d.get(key, [])`) does not. */
  function ReplaceIfPresent(v: Json, key: string, value: Json): Json {
    match v
    case JObj(m) => if key in m then JObj(m[key := value]) else v
    case _ => v
  }

  /** Reading the pod spec back after storing it finds the stored value. */
  lemma LocateAfterStore(kind: string, obj: map<string, Json>, podSpec: Json)
    requires SupportedKind(kind) && StorePodSpec(kind, obj, podSpec).Ok?
    ensures LocatePodSpec(kind, StorePodSpec(kind, obj, podSpec).value) == Ok(podSpec)
  {
  }

  /** Storing a pod spec where it is already stored changes nothing. */
  lemma StoreAgain(kind: string, obj: map<string, Json>, podSpec: Json)
    requires StorePodSpec(kind, obj, podSpec).Ok?
    ensures StorePodSpec(kind, StorePodSpec(kind, obj, podSpec).value, podSpec)
            == StorePodSpec(kind, obj, podSpec)
  {
    var obj' := StorePodSpec(kind, obj, podSpec).value;
    if kind != Pod {
      var template' := JObj(obj["spec"].fields["template"].fields["spec" := podSpec]);
      var spec' := JObj(obj["spec"].fields["template" := template']);
      assert obj' == obj["spec" := spec'];
      assert obj'["spec"].fields["template"].fields["spec" := podSpec] == template'.fields;
      assert obj'["spec"].fields["template" := template'] == spec'.fields;
      assert StorePodSpec(kind, obj', podSpec) == Ok(obj'["spec" := spec']);
      assert obj'["spec" := spec'] == obj';
    } else {
      assert obj'["spec" := podSpec] == obj';
    }
  }

  /** For the two supported kinds, storing fails only for a Deployment
      that lacks `spec` or `spec.template` after its pod spec was found:
      the failure is the `KeyError` of the missing key. */
  lemma StoreAfterLocate(kind: string, obj: map<string, Json>, podSpec: Json)
    requires SupportedKind(kind) && LocatePodSpec(kind, obj).Ok?
    ensures StorePodSpec(kind, obj, podSpec).Err? ==>
              kind == Deployment
              && StorePodSpec(kind, obj, podSpec)
                 == Err(MissingKey(if "spec" !in obj then "spec" else "template"))
  {
  }
}

=== FILE: defaults.dfy ===
/** `mutators/defaults.py`: the three mutators that fill in defaults —
    labels and annotations, security contexts, resource requirements. Each
    leaves a kind other than Pod or Deployment alone, edits the object in
    place, and returns it; an exception becomes an unmutated result carrying
    its text. The object after an exception is not modelled: the chain
    discards it with the result. */
module Defaults {
  import opened Py
  import opened Json
  import opened Strings
  import opened Admission
  import opened PodRules
  import opened MutatorBase

  /** The result of a mutator of a supported kind, from the edited object or
      the exception its edit raised; any other kind is left alone. Mutated
      exactly when the kind is supported and the edit went through; the
      object is returned only then, and the exception's text only when the
      edit raised. */
  function Outcome(kind: string, edited: Result<map<string, Json>>): (r: MutationResult)
    ensures r.mutated <==> SupportedKind(kind) && edited.Ok?
    ensures r.patched == (if r.mutated then Some(JObj(edited.value)) else None)
    ensures r.message == (if SupportedKind(kind) && edited.Err? then Some(edited.error.Text()) else None)
  {
    if !SupportedKind(kind) then NotMutated
    else match edited
      case Ok(obj) => Mutated(obj)
      case Err(e) => Failed(e)
  }

  // ---------------------------------------------------------------------
  // Editing the pod spec and its containers
  // ---------------------------------------------------------------------

  /** Applies `edit` to every item in order, stopping at the first that
      raises. */
  function EditItems(xs: seq<Json>, edit: Json -> Result<Json>): (r: Result<seq<Json>>)
    ensures r.Ok? <==> forall i :: 0 <= i < |xs| ==> edit(xs[i]).Ok?
    ensures r.Ok? ==> |r.value| == |xs| && forall i :: 0 <= i < |xs| ==> r.value[i] == edit(xs[i]).value
    ensures r.Err? ==> exists i :: && 0 <= i < |xs| && edit(xs[i]) == Err(r.error)
                                   && forall j :: 0 <= j < i ==> edit(xs[j]).Ok?
    decreases |xs|
  {
    assert forall i :: 1 <= i < |xs| ==> xs[1..][i - 1] == xs[i];
    if |xs| == 0 then Ok([])
    else match edit(xs[0])
      case Err(e) => Err(e)
      case Ok(y) =>
        match EditItems(xs[1..], edit)
        case Err(e) => Err(e)
        case Ok(ys) => Ok([y] + ys)
  }

  /** `for container in containers: <edit container>`, giving the value of
      `containers` after the loop. A list has each item edited in place. A
      dict or a string visits `str` values: the loop body leaves one alone
      when `skips` says so, and otherwise raises by assigning into it. */
  function EditContainers(containers: Json, edit: Json -> Result<Json>, skips: string -> bool): (r: Result<Json>)
    ensures containers.JArr? ==> (r.Ok? <==> forall i :: 0 <= i < |containers.items| ==> edit(containers.items[i]).Ok?)
    ensures containers.JArr? && r.Ok? ==>
              && r.value.JArr? && |r.value.items| == |containers.items|
              && forall i :: 0 <= i < |containers.items| ==> r.value.items[i] == edit(containers.items[i]).value
    ensures containers.JObj? ==>
              r == (if forall k :: k in containers.fields ==> skips(k) then Ok(containers)
                    else Err(NoItemAssignment("str")))
    ensures containers.JStr? && |containers.s| == 0 ==> r == Ok(containers)
    ensures containers.JStr? ==>
              r == (if forall i :: 0 <= i < |containers.s| ==> skips([containers.s[i]]) then Ok(containers)
                    else Err(NoItemAssignment("str")))
    ensures !IsContainer(containers) ==> r == Err(NotIterable(TypeName(containers)))
    ensures r.Ok? && !containers.JArr? ==> r.value == containers
  {
    var iteration :- Iterate(containers);
    match iteration
    case Items(xs) =>
      var ys :- EditItems(xs, edit);
      Ok(JArr(ys))
    case Strings(strs) =>
      if forall s :: s in strs ==> skips(s) then Ok(containers) else Err(NoItemAssignment("str"))
  }

  /** An edit that is idempotent on the containers it accepts keeps the
      containers loop idempotent. */
  lemma EditContainersTwice(containers: Json, edit: Json -> Result<Json>, skips: string -> bool)
    requires forall c :: edit(c).Ok? ==> edit(edit(c).value) == edit(c)
    requires EditContainers(containers, edit, skips).Ok?
    ensures EditContainers(EditContainers(containers, edit, skips).value, edit, skips)
            == EditContainers(containers, edit, skips)
  {
    var once := EditContainers(containers, edit, skips).value;
    if containers.JArr? {
      var twice := EditContainers(once, edit, skips);
      forall i | 0 <= i < |once.items|
        ensures edit(once.items[i]) == Ok(once.items[i])
      {
        assert edit(containers.items[i]).Ok?;
      }
      assert twice.value.items == once.items;
    }
  }

  /** `obj'` differs from `obj` at most in the pod spec: for a Pod every
      entry but `spec` is kept; otherwise every entry but `spec`, every entry
      of `spec` but `template`, and every entry of `template` but `spec`. */
  predicate SameOutsidePodSpec(kind: string, obj: map<string, Json>, obj': map<string, Json>) {
    && KeepsOthers(obj, obj', {"spec"})
    && (kind != Pod ==>
          && "spec" in obj && obj["spec"].JObj? && "spec" in obj' && obj'["spec"].JObj?
          && KeepsOthers(obj["spec"].fields, obj'["spec"].fields, {"template"})
          && "template" in obj["spec"].fields && obj["spec"].fields["template"].JObj?
          && "template" in obj'["spec"].fields && obj'["spec"].fields["template"].JObj?
          && KeepsOthers(obj["spec"].fields["template"].fields, obj'["spec"].fields["template"].fields, {"spec"}))
  }

  /** Finds the pod spec, edits it, then stores it back where the kind
      keeps it. */
  function EditPodSpec(request: Request, edit: Json -> Result<Json>): (r: Result<map<string, Json>>)
    ensures SupportedKind(request.kind) && r.Ok? ==>
              && LocatePodSpec(request.kind, request.obj).Ok?
              && edit(LocatePodSpec(request.kind, request.obj).value).Ok?
              && LocatePodSpec(request.kind, r.value) == edit(LocatePodSpec(request.kind, request.obj).value)
    ensures r.Ok? <==> && LocatePodSpec(request.kind, request.obj).Ok?
                       && edit(LocatePodSpec(request.kind, request.obj).value).Ok?
                       && StorePodSpec(request.kind, request.obj, edit(LocatePodSpec(request.kind, request.obj).value).value).Ok?
    ensures r.Ok? ==> && LocatePodSpec(request.kind, request.obj).Ok?
                      && edit(LocatePodSpec(request.kind, request.obj).value).Ok?
                      && StorePodSpec(request.kind, request.obj, edit(LocatePodSpec(request.kind, request.obj).value).value)
                         == Ok(r.value)
    ensures r.Ok? ==> && r.value.Keys == request.obj.Keys + {"spec"}
                      && forall k :: k in request.obj && k != "spec" ==> r.value[k] == request.obj[k]
    ensures r.Ok? ==> SameOutsidePodSpec(request.kind, request.obj, r.value)
  {
    var podSpec :- LocatePodSpec(request.kind, request.obj);
    var podSpec' :- edit(podSpec);
    var obj' :- StorePodSpec(request.kind, request.obj, podSpec');
    if SupportedKind(request.kind) then
      LocateAfterStore(request.kind, request.obj, podSpec');
      Ok(obj')
    else Ok(obj')
  }

  /** Editing twice with an edit that is idempotent on its own results
      edits once. */
  lemma EditPodSpecTwice(request: Request, edit: Json -> Result<Json>)
    requires SupportedKind(request.kind) && EditPodSpec(request, edit).Ok?
    requires forall p :: edit(p).Ok? ==> edit(edit(p).value) == edit(p)
    ensures EditPodSpec(Request(request.kind, EditPodSpec(request, edit).value), edit) == EditPodSpec(request, edit)
  {
    var podSpec := LocatePodSpec(request.kind, request.obj).value;
    var podSpec' := edit(podSpec).value;
    StoreAgain(request.kind, request.obj, podSpec');
  }

  // ---------------------------------------------------------------------
  // DefaultLabelsAnnotationsMutator
  // ---------------------------------------------------------------------

  /** The default labels and annotations (`None` is the empty dict). */
  datatype LabelsConfig = LabelsConfig(labels: map<string, string>, annotations: map<string, string>)

  /** `d.update(defaults)`: every default is set, overwriting an entry of
      the same name, and every other entry stays. */
  function Update(m: map<string, Json>, defaults: map<string, string>): (r: map<string, Json>)
    ensures r.Keys == m.Keys + defaults.Keys
    ensures forall k :: k in defaults ==> r[k] == JStr(defaults[k])
    ensures forall k :: k in m && k !in defaults ==> r[k] == m[k]
  {
    m + StrValues(defaults)
  }

  /** Updating with the same defaults again changes nothing. */
  lemma UpdateTwice(m: map<string, Json>, defaults: map<string, string>)
    ensures Update(Update(m, defaults), defaults) == Update(m, defaults)
  {
    assert Update(Update(m, defaults), defaults).Keys == Update(m, defaults).Keys;
  }

  /** Entry `key` of `after` is entry `key` of `before` merged with
      `defaults`; with no defaults it is left as it was (absent included). */
  predicate MergedEntry(before: map<string, Json>, after: map<string, Json>, key: string,
                        defaults: map<string, string>)
  {
    if |defaults| == 0 then (key in after <==> key in before) && (key in after ==> after[key] == before[key])
    else && key in after && Field(before, key, EmptyDict).JObj?
         && after[key] == JObj(Update(Field(before, key, EmptyDict).fields, defaults))
  }

  /** Every entry of `before` outside `keys` is in `after` unchanged, and
      `after` has no new entry outside `keys`. */
  predicate KeepsOthers(before: map<string, Json>, after: map<string, Json>, keys: set<string>) {
    && after.Keys <= before.Keys + keys
    && forall k :: k in before && k !in keys ==> k in after && after[k] == before[k]
  }

  /** With some defaults, the entry `key` of a dict (an empty dict when
      absent) is updated with them and assigned back; with none, nothing
      happens. */
  function MergeKey(fields: map<string, Json>, key: string, defaults: map<string, string>): (r: Result<map<string, Json>>)
    ensures r.Ok? <==> |defaults| == 0 || Field(fields, key, EmptyDict).JObj?
    ensures r.Ok? ==> MergedEntry(fields, r.value, key, defaults) && KeepsOthers(fields, r.value, {key})
    ensures r.Err? ==> r.error == NoAttribute(TypeName(Field(fields, key, EmptyDict)), "update")
  {
    if |defaults| == 0 then Ok(fields)
    else
      var current := Field(fields, key, EmptyDict);
      match current
      case JObj(m) => Ok(fields[key := JObj(Update(m, defaults))])
      case _ => Err(NoAttribute(TypeName(current), "update"))
  }

  /** Storing the value an entry already holds changes nothing. */
  lemma StoreSame(m: map<string, Json>, key: string, v: Json)
    requires key in m && m[key] == v
    ensures m[key := v] == m
  {
  }

  /** Merging into a dict entry `x` stores `x` updated with the defaults. */
  lemma MergeKeyInto(fields: map<string, Json>, key: string, defaults: map<string, string>, x: map<string, Json>)
    requires |defaults| > 0 && Field(fields, key, EmptyDict) == JObj(x)
    ensures MergeKey(fields, key, defaults) == Ok(fields[key := JObj(Update(x, defaults))])
  {
  }

  /** Merging into an entry that already holds its defaults changes
      nothing. */
  lemma MergeKeyTwice(fields: map<string, Json>, key: string, defaults: map<string, string>)
    requires MergeKey(fields, key, defaults).Ok?
    ensures MergeKey(MergeKey(fields, key, defaults).value, key, defaults) == MergeKey(fields, key, defaults)
  {
    if |defaults| > 0 {
      var x := Field(fields, key, EmptyDict).fields;
      var merged := Update(x, defaults);
      var once := fields[key := JObj(merged)];
      MergeKeyInto(fields, key, defaults, x);
      MergeKeyInto(once, key, defaults, merged);
      UpdateTwice(x, defaults);
      StoreSame(once, key, JObj(merged));
    }
  }

  /** The label and annotation merge into one metadata value. With no
      defaults it does not look at the value at all. */
  function MergeMetadata(config: LabelsConfig, metadata: Json): (r: Result<Json>)
    ensures |config.labels| == 0 && |config.annotations| == 0 ==> r == Ok(metadata)
    ensures (|config.labels| > 0 || |config.annotations| > 0) && !metadata.JObj? ==>
              r == Err(NoAttribute(TypeName(metadata), "get"))
    ensures metadata.JObj? ==>
              (r.Ok? <==> && (|config.labels| == 0 || Field(metadata.fields, "labels", EmptyDict).JObj?)
                          && (|config.annotations| == 0 || Field(metadata.fields, "annotations", EmptyDict).JObj?))
    ensures metadata.JObj? && r.Ok? ==>
              && r.value.JObj?
              && MergedEntry(metadata.fields, r.value.fields, "labels", config.labels)
              && MergedEntry(metadata.fields, r.value.fields, "annotations", config.annotations)
              && KeepsOthers(metadata.fields, r.value.fields, {"labels", "annotations"})
  {
    if |config.labels| == 0 && |config.annotations| == 0 then Ok(metadata)
    else match metadata
      case JObj(m) =>
        var withLabels :- MergeKey(m, "labels", config.labels);
        var withBoth :- MergeKey(withLabels, "annotations", config.annotations);
        Ok(JObj(withBoth))
      case _ => Err(NoAttribute(TypeName(metadata), "get"))
  }

  /** Merging a second time changes nothing. */
  lemma MergeMetadataTwice(config: LabelsConfig, metadata: Json)
    requires MergeMetadata(config, metadata).Ok?
    ensures MergeMetadata(config, MergeMetadata(config, metadata).value) == MergeMetadata(config, metadata)
  {
    if |config.labels| > 0 || |config.annotations| > 0 {
      var withLabels := MergeKey(metadata.fields, "labels", config.labels).value;
      var withBoth := MergeKey(withLabels, "annotations", config.annotations).value;
      assert MergeMetadata(config, metadata) == Ok(JObj(withBoth));
      assert MergeKey(withBoth, "labels", config.labels) == Ok(withBoth) by {
        if |config.labels| > 0 {
          var x := Field(metadata.fields, "labels", EmptyDict).fields;
          var labels := JObj(Update(x, config.labels));
          assert withBoth["labels"] == labels;
          MergeKeyInto(withBoth, "labels", config.labels, labels.fields);
          UpdateTwice(x, config.labels);
          StoreSame(withBoth, "labels", labels);
        }
      }
      assert MergeKey(withBoth, "annotations", config.annotations) == Ok(withBoth) by {
        MergeKeyTwice(withLabels, "annotations", config.annotations);
      }
      MergeMetadataFixed(config, withBoth);
    }
  }

  /** Metadata whose entries both merges leave alone is left alone. */
  lemma MergeMetadataFixed(config: LabelsConfig, fields: map<string, Json>)
    requires MergeKey(fields, "labels", config.labels) == Ok(fields)
    requires MergeKey(fields, "annotations", config.annotations) == Ok(fields)
    ensures MergeMetadata(config, JObj(fields)) == Ok(JObj(fields))
  {
  }

  /** `spec'` is `spec` with the metadata of its template (`{}` when absent)
      merged with the defaults: the template, an empty dict when `spec` has
      none, keeps its other entries, and `spec` keeps every entry but
      `template`. */
  predicate TemplateMerged(config: LabelsConfig, spec: map<string, Json>, spec': map<string, Json>) {
    var template := Field(spec, "template", EmptyDict);
    && template.JObj?
    && MergeMetadata(config, Field(template.fields, "metadata", EmptyDict)).Ok?
    && "template" in spec'
    && spec'["template"]
       == JObj(template.fields["metadata" := MergeMetadata(config, Field(template.fields, "metadata", EmptyDict)).value])
    && KeepsOthers(spec, spec', {"template"})
  }

  /** The Deployment step: read `spec.template` with defaults, merge into
      its `metadata` and store that back, then assign the template to the
      `template` entry of `obj["spec"]`, which raises when there is no
      `spec`. */
  function LabelTemplate(config: LabelsConfig, obj: map<string, Json>): (r: Result<map<string, Json>>)
    ensures "spec" !in obj ==> r == Err(MissingKey("spec"))
    ensures r.Ok? <==> && "spec" in obj && obj["spec"].JObj?
                       && Field(obj["spec"].fields, "template", EmptyDict).JObj?
                       && MergeMetadata(config, Field(Field(obj["spec"].fields, "template", EmptyDict).fields,
                                                      "metadata", EmptyDict)).Ok?
    ensures r.Ok? ==> && "spec" in obj && obj["spec"].JObj?
                      && var template := Field(obj["spec"].fields, "template", EmptyDict).fields;
                         var metadata' := MergeMetadata(config, Field(template, "metadata", EmptyDict)).value;
                         r.value == obj["spec" := JObj(obj["spec"].fields["template" := JObj(template["metadata" := metadata'])])]
  {
    var template :- Get(Field(obj, "spec", EmptyDict), "template", EmptyDict);
    var templateMetadata :- Get(template, "metadata", EmptyDict);
    var templateMetadata' :- MergeMetadata(config, templateMetadata);
    var spec :- GetItem(JObj(obj), "spec");
    Ok(obj["spec" := JObj(spec.fields["template" := JObj(template.fields["metadata" := templateMetadata'])])])
  }

  /** Merging into the template a second time changes nothing. */
  lemma LabelTemplateTwice(config: LabelsConfig, obj: map<string, Json>)
    requires LabelTemplate(config, obj).Ok?
    ensures LabelTemplate(config, LabelTemplate(config, obj).value) == LabelTemplate(config, obj)
  {
    var spec := obj["spec"].fields;
    var template := Field(spec, "template", EmptyDict).fields;
    var templateMetadata := Field(template, "metadata", EmptyDict);
    var templateMetadata' := MergeMetadata(config, templateMetadata).value;
    var template' := template["metadata" := templateMetadata'];
    var spec' := spec["template" := JObj(template')];
    var once := obj["spec" := JObj(spec')];
    MergeMetadataTwice(config, templateMetadata);
    assert Field(template', "metadata", EmptyDict) == templateMetadata';
    assert template'["metadata" := templateMetadata'] == template';
    assert spec'["template" := JObj(template')] == spec';
    assert once["spec" := JObj(spec')] == once;
  }

  /** The body of `DefaultLabelsAnnotationsMutator.mutate` for a supported
      kind: merge into `metadata` and always store it back, then for a
      Deployment into `spec.template.metadata` as well. */
  function Labelled(config: LabelsConfig, request: Request): (r: Result<map<string, Json>>)
    ensures r.Ok? ==> && MergeMetadata(config, Field(request.obj, "metadata", EmptyDict)).Ok?
                      && "metadata" in r.value
                      && r.value["metadata"] == MergeMetadata(config, Field(request.obj, "metadata", EmptyDict)).value
    ensures request.kind != Deployment ==>
              (r.Ok? <==> MergeMetadata(config, Field(request.obj, "metadata", EmptyDict)).Ok?)
    ensures request.kind != Deployment && r.Ok? ==> KeepsOthers(request.obj, r.value, {"metadata"})
    ensures (&& request.kind == Deployment && "spec" !in request.obj
             && MergeMetadata(config, Field(request.obj, "metadata", EmptyDict)).Ok?) ==> r == Err(MissingKey("spec"))
  {
    var metadata :- MergeMetadata(config, Field(request.obj, "metadata", EmptyDict));
    var obj := request.obj["metadata" := metadata];
    if request.kind == Deployment then LabelTemplate(config, obj) else Ok(obj)
  }

  /** `DefaultLabelsAnnotationsMutator.mutate`. */
  function LabelsMutate(config: LabelsConfig, request: Request): (r: MutationResult)
    ensures !SupportedKind(request.kind) ==> r == NotMutated
    ensures r.mutated ==> && r.message == None && r.patched.Some? && r.patched.value.JObj?
                          && MergeMetadata(config, Field(request.obj, "metadata", EmptyDict)).Ok?
                          && "metadata" in r.patched.value.fields
                          && r.patched.value.fields["metadata"]
                             == MergeMetadata(config, Field(request.obj, "metadata", EmptyDict)).value
    ensures SupportedKind(request.kind) && !r.mutated ==> r.patched == None && r.message.Some?
  {
    Outcome(request.kind, Labelled(config, request))
  }

  /** The merge reaches the pod's own labels: a configured default
      overwrites a label of the same name and every other label stays. */
  lemma LabelsMerged(config: LabelsConfig, request: Request, key: string)
    requires request.kind == Pod && |config.labels| > 0
    requires LabelsMutate(config, request).mutated
    ensures var metadata := Field(request.obj, "metadata", EmptyDict);
            var before := Field(metadata.fields, "labels", EmptyDict).fields;
            var labels := LabelsMutate(config, request).patched.value.fields["metadata"].fields["labels"].fields;
            && labels.Keys == before.Keys + config.labels.Keys
            && (key in config.labels ==> labels[key] == JStr(config.labels[key]))
            && (key in before && key !in config.labels ==> labels[key] == before[key])
  {
  }

  /** What a mutation by the labels mutator changes: `metadata` is merged;
      for a Pod nothing else changes; for a Deployment the pod template's
      metadata is merged as well and nothing outside `metadata` and
      `spec.template` changes. */
  lemma LabelsMutateMerges(config: LabelsConfig, request: Request)
    requires LabelsMutate(config, request).mutated
    ensures var obj' := LabelsMutate(config, request).patched.value.fields;
            && MergeMetadata(config, Field(request.obj, "metadata", EmptyDict)).Ok?
            && "metadata" in obj'
            && obj'["metadata"] == MergeMetadata(config, Field(request.obj, "metadata", EmptyDict)).value
            && (request.kind == Pod ==> KeepsOthers(request.obj, obj', {"metadata"}))
            && (request.kind == Deployment ==>
                  && KeepsOthers(request.obj, obj', {"metadata", "spec"})
                  && "spec" in request.obj && request.obj["spec"].JObj? && "spec" in obj' && obj'["spec"].JObj?
                  && TemplateMerged(config, request.obj["spec"].fields, obj'["spec"].fields))
  {
    if request.kind == Deployment {
      var metadata := MergeMetadata(config, Field(request.obj, "metadata", EmptyDict)).value;
      var obj := request.obj["metadata" := metadata];
      assert obj["spec"] == request.obj["spec"];
    }
  }

  /** `obj.get("spec", {}).get("template", {}).get("metadata", {})`, and
      `{}` where a level is not a dict. */
  function TemplateMetadata(obj: map<string, Json>): Json {
    var spec := Field(obj, "spec", EmptyDict);
    var template := if spec.JObj? then Field(spec.fields, "template", EmptyDict) else EmptyDict;
    if template.JObj? then Field(template.fields, "metadata", EmptyDict) else EmptyDict
  }

  /** `metadata.get("labels", {})`, and no labels where that is not a
      dict. */
  function LabelsIn(metadata: Json): map<string, Json> {
    if metadata.JObj? && Field(metadata.fields, "labels", EmptyDict).JObj?
    then Field(metadata.fields, "labels", EmptyDict).fields
    else map[]
  }

  /** With some default labels, a metadata merge leaves as labels the old
      labels updated with the defaults. */
  lemma LabelsAfterMerge(config: LabelsConfig, metadata: Json)
    requires |config.labels| > 0 && MergeMetadata(config, metadata).Ok?
    ensures LabelsIn(MergeMetadata(config, metadata).value) == Update(LabelsIn(metadata), config.labels)
  {
    var merged := MergeMetadata(config, metadata).value;
    assert metadata.JObj?;
    var x := Field(metadata.fields, "labels", EmptyDict);
    assert x.JObj?;
    assert "labels" in merged.fields && merged.fields["labels"] == JObj(Update(x.fields, config.labels)) by {
      assert MergedEntry(metadata.fields, merged.fields, "labels", config.labels);
    }
  }

  /** A metadata merge with some default labels gives labels that are the
      old ones plus the defaults, the defaults winning. */
  lemma MergedLabels(config: LabelsConfig, metadata: Json, key: string)
    requires |config.labels| > 0 && MergeMetadata(config, metadata).Ok?
    ensures var before := LabelsIn(metadata);
            var labels := LabelsIn(MergeMetadata(config, metadata).value);
            && labels.Keys == before.Keys + config.labels.Keys
            && (key in config.labels ==> labels[key] == JStr(config.labels[key]))
            && (key in before && key !in config.labels ==> labels[key] == before[key])
  {
    LabelsAfterMerge(config, metadata);
  }

  /** On a Deployment, the template metadata after a mutation is the old
      template metadata merged. */
  lemma TemplateMetadataMerged(config: LabelsConfig, request: Request)
    requires request.kind == Deployment && LabelsMutate(config, request).mutated
    ensures MergeMetadata(config, TemplateMetadata(request.obj)).Ok?
    ensures TemplateMetadata(LabelsMutate(config, request).patched.value.fields)
            == MergeMetadata(config, TemplateMetadata(request.obj)).value
  {
    LabelsMutateMerges(config, request);
    var obj' := LabelsMutate(config, request).patched.value.fields;
    var template := Field(request.obj["spec"].fields, "template", EmptyDict);
    var merged := MergeMetadata(config, Field(template.fields, "metadata", EmptyDict)).value;
    assert TemplateMetadata(request.obj) == Field(template.fields, "metadata", EmptyDict);
    assert obj'["spec"].fields["template"] == JObj(template.fields["metadata" := merged]);
  }

  /** The merge reaches a Deployment's pod template as well: its labels get
      every configured default and keep every other label. */
  lemma TemplateLabelsMerged(config: LabelsConfig, request: Request, key: string)
    requires request.kind == Deployment && |config.labels| > 0
    requires LabelsMutate(config, request).mutated
    ensures var before := LabelsIn(TemplateMetadata(request.obj));
            var labels := LabelsIn(TemplateMetadata(LabelsMutate(config, request).patched.value.fields));
            && labels.Keys == before.Keys + config.labels.Keys
            && (key in config.labels ==> labels[key] == JStr(config.labels[key]))
            && (key in before && key !in config.labels ==> labels[key] == before[key])
  {
    TemplateMetadataMerged(config, request);
    MergedLabels(config, TemplateMetadata(request.obj), key);
  }

  /** With no defaults a Pod is still reported as mutated, and the only
      change is that `metadata` is set: to `{}` when it was absent. */
  lemma NoLabelsStillMutated(request: Request)
    requires request.kind == Pod
    ensures LabelsMutate(LabelsConfig(map[], map[]), request)
            == Mutated(request.obj["metadata" := Field(request.obj, "metadata", EmptyDict)])
  {
  }

  /** A Deployment without `spec` fails on `obj["spec"]`, after the pod
      metadata merge succeeded. */
  lemma LabelsDeploymentWithoutSpec(config: LabelsConfig, request: Request)
    requires request.kind == Deployment && "spec" !in request.obj
    requires MergeMetadata(config, Field(request.obj, "metadata", EmptyDict)).Ok?
    ensures LabelsMutate(config, request) == Failed(MissingKey("spec"))
  {
  }

  /** Applying the labels mutator to its own result changes nothing. */
  lemma LabelsTwice(config: LabelsConfig, request: Request)
    requires LabelsMutate(config, request).mutated
    ensures LabelsMutate(config, Request(request.kind, LabelsMutate(config, request).patched.value.fields))
            == LabelsMutate(config, request)
  {
    var metadata := Field(request.obj, "metadata", EmptyDict);
    MergeMetadataTwice(config, metadata);
    var metadata' := MergeMetadata(config, metadata).value;
    var obj := request.obj["metadata" := metadata'];
    var once := Labelled(config, request).value;
    assert once["metadata" := metadata'] == once;
    if request.kind == Deployment {
      LabelTemplateTwice(config, obj);
    } else {
      assert obj["metadata" := metadata'] == obj;
    }
  }

  // ---------------------------------------------------------------------
  // DefaultSecurityContextMutator
  // ---------------------------------------------------------------------

  /** The constructor arguments; `None` leaves an id out of the contexts. */
  datatype SecurityDefaults = SecurityDefaults(runAsNonRoot: bool, readOnlyRootFilesystem: bool,
                                               runAsUser: Option<int>, runAsGroup: Option<int>,
                                               fsGroup: Option<int>)

  const DefaultSecurityDefaults := SecurityDefaults(true, true, None, None, None)

  /** Sets an id in a context only when one is configured. */
  function WithId(context: map<string, Json>, key: string, value: Option<int>): map<string, Json> {
    if value.Some? then context[key := JInt(value.value)] else context
  }

  /** `get_default_container_security_context`. */
  function ContainerSecurityContext(config: SecurityDefaults): (r: map<string, Json>)
    ensures "runAsNonRoot" in r && r["runAsNonRoot"] == JBool(config.runAsNonRoot)
    ensures "readOnlyRootFilesystem" in r && r["readOnlyRootFilesystem"] == JBool(config.readOnlyRootFilesystem)
    ensures "allowPrivilegeEscalation" in r && r["allowPrivilegeEscalation"] == JBool(false)
    ensures "runAsUser" in r <==> config.runAsUser.Some?
    ensures "runAsUser" in r ==> r["runAsUser"] == JInt(config.runAsUser.value)
    ensures "runAsGroup" in r <==> config.runAsGroup.Some?
    ensures "runAsGroup" in r ==> r["runAsGroup"] == JInt(config.runAsGroup.value)
    ensures "fsGroup" !in r
    ensures r.Keys <= {"runAsNonRoot", "readOnlyRootFilesystem", "allowPrivilegeEscalation", "runAsUser", "runAsGroup"}
  {
    var base := map["runAsNonRoot" := JBool(config.runAsNonRoot),
                     "readOnlyRootFilesystem" := JBool(config.readOnlyRootFilesystem),
                     "allowPrivilegeEscalation" := JBool(false)];
    WithId(WithId(base, "runAsUser", config.runAsUser), "runAsGroup", config.runAsGroup)
  }

  /** `get_default_pod_security_context`. */
  function PodSecurityContext(config: SecurityDefaults): (r: map<string, Json>)
    ensures "runAsNonRoot" in r && r["runAsNonRoot"] == JBool(config.runAsNonRoot)
    ensures "runAsUser" in r <==> config.runAsUser.Some?
    ensures "runAsUser" in r ==> r["runAsUser"] == JInt(config.runAsUser.value)
    ensures "runAsGroup" in r <==> config.runAsGroup.Some?
    ensures "runAsGroup" in r ==> r["runAsGroup"] == JInt(config.runAsGroup.value)
    ensures "fsGroup" in r <==> config.fsGroup.Some?
    ensures "fsGroup" in r ==> r["fsGroup"] == JInt(config.fsGroup.value)
    ensures r.Keys <= {"runAsNonRoot", "runAsUser", "runAsGroup", "fsGroup"}
  {
    var base := map["runAsNonRoot" := JBool(config.runAsNonRoot)];
    WithId(WithId(WithId(base, "runAsUser", config.runAsUser), "runAsGroup", config.runAsGroup),
           "fsGroup", config.fsGroup)
  }

  /** Assigns a fresh default container context to a container. */
  function SetContainerContext(config: SecurityDefaults): Json -> Result<Json> {
    c => SetItem(c, "securityContext", JObj(ContainerSecurityContext(config)))
  }

  function NeverSkips(): string -> bool {
    s => false
  }

  /** The edit of the located pod spec: replace its `securityContext`, then
      that of every container. */
  function SecureSpec(config: SecurityDefaults, podSpec: Json): (r: Result<Json>)
    ensures r.Ok? ==> podSpec.JObj? && r.value.JObj?
    ensures r.Ok? ==> && r.value.fields.Keys == podSpec.fields.Keys + {"securityContext"}
                      && r.value.fields["securityContext"] == JObj(PodSecurityContext(config))
                      && forall k :: k in podSpec.fields && k != "securityContext" && k != "containers" ==>
                           r.value.fields[k] == podSpec.fields[k]
    ensures r.Ok? && ContainersOf(podSpec.fields).JArr? ==>
              var xs := ContainersOf(podSpec.fields).items;
              && ContainersOf(r.value.fields).JArr? && |ContainersOf(r.value.fields).items| == |xs|
              && forall i :: 0 <= i < |xs| ==>
                   xs[i].JObj? && ContainersOf(r.value.fields).items[i]
                                  == JObj(xs[i].fields["securityContext" := JObj(ContainerSecurityContext(config))])
    ensures (podSpec.JObj? && ContainersOf(podSpec.fields).JArr?
             && forall c :: c in ContainersOf(podSpec.fields).items ==> c.JObj?) ==> r.Ok?
  {
    var spec :- SetItem(podSpec, "securityContext", JObj(PodSecurityContext(config)));
    var containers :- EditContainers(ContainersOf(spec.fields), SetContainerContext(config), NeverSkips());
    Ok(ReplaceIfPresent(spec, "containers", containers))
  }

  /** Setting the container context twice sets it once. */
  lemma SetContainerContextTwice(config: SecurityDefaults)
    ensures forall c :: SetContainerContext(config)(c).Ok? ==>
              SetContainerContext(config)(SetContainerContext(config)(c).value) == SetContainerContext(config)(c)
  {
    var context := JObj(ContainerSecurityContext(config));
    forall c | SetContainerContext(config)(c).Ok?
      ensures SetContainerContext(config)(SetContainerContext(config)(c).value) == SetContainerContext(config)(c)
    {
      StoreSame(c.fields["securityContext" := context], "securityContext", context);
    }
  }

  /** A pod spec that already holds the pod context, and whose containers
      the containers loop leaves alone, is left alone. */
  lemma SecureSpecFixed(config: SecurityDefaults, podSpec: map<string, Json>)
    requires "securityContext" in podSpec && podSpec["securityContext"] == JObj(PodSecurityContext(config))
    requires EditContainers(ContainersOf(podSpec), SetContainerContext(config), NeverSkips()) == Ok(ContainersOf(podSpec))
    ensures SecureSpec(config, JObj(podSpec)) == Ok(JObj(podSpec))
  {
    StoreSame(podSpec, "securityContext", JObj(PodSecurityContext(config)));
    if "containers" in podSpec {
      StoreSame(podSpec, "containers", podSpec["containers"]);
    }
  }

  /** Securing an already secured pod spec changes nothing. */
  lemma SecureSpecTwice(config: SecurityDefaults, podSpec: Json)
    requires SecureSpec(config, podSpec).Ok?
    ensures SecureSpec(config, SecureSpec(config, podSpec).value) == SecureSpec(config, podSpec)
  {
    var context := JObj(PodSecurityContext(config));
    var spec := podSpec.fields["securityContext" := context];
    var edit := SetContainerContext(config);
    var containers := EditContainers(ContainersOf(spec), edit, NeverSkips()).value;
    var once := ReplaceIfPresent(JObj(spec), "containers", containers).fields;
    assert SecureSpec(config, podSpec) == Ok(JObj(once));
    assert EditContainers(ContainersOf(once), edit, NeverSkips()) == Ok(ContainersOf(once)) by {
      if "containers" in spec {
        assert ContainersOf(once) == containers;
        SetContainerContextTwice(config);
        EditContainersTwice(ContainersOf(spec), edit, NeverSkips());
      } else {
        assert ContainersOf(once) == JArr([]);
      }
    }
    SecureSpecFixed(config, once);
  }

  /** `DefaultSecurityContextMutator.mutate`. */
  function SecurityMutate(config: SecurityDefaults, request: Request): (r: MutationResult)
    ensures !SupportedKind(request.kind) ==> r == NotMutated
    ensures SupportedKind(request.kind) && r.mutated ==>
              && r.message == None && r.patched.Some? && r.patched.value.JObj?
              && var p := LocatePodSpec(request.kind, request.obj);
                 p.Ok? && LocatePodSpec(request.kind, r.patched.value.fields) == SecureSpec(config, p.value)
    ensures r.mutated ==> "spec" in r.patched.value.fields && KeepsOthers(request.obj, r.patched.value.fields, {"spec"})
    ensures r.mutated ==> SameOutsidePodSpec(request.kind, request.obj, r.patched.value.fields)
    ensures SupportedKind(request.kind) && !r.mutated ==> r.patched == None && r.message.Some?
  {
    Outcome(request.kind, EditPodSpec(request, p => SecureSpec(config, p)))
  }

  /** A Pod or Deployment whose pod spec is a dict holding a list of dict
      containers, stored where the kind keeps it, is secured and reported
      mutated. */
  lemma SecurityMutatesWellFormed(config: SecurityDefaults, request: Request, spec: map<string, Json>)
    requires SupportedKind(request.kind) && LocatePodSpec(request.kind, request.obj) == Ok(JObj(spec))
    requires request.kind == Deployment ==>
               && "spec" in request.obj && request.obj["spec"].JObj? && "template" in request.obj["spec"].fields
               && request.obj["spec"].fields["template"].JObj?
    requires ContainersOf(spec).JArr? && forall c :: c in ContainersOf(spec).items ==> c.JObj?
    ensures SecurityMutate(config, request).mutated
  {
  }

  /** Applying the security-context mutator to its own result changes
      nothing. */
  lemma SecurityTwice(config: SecurityDefaults, request: Request)
    requires SecurityMutate(config, request).mutated
    ensures SecurityMutate(config, Request(request.kind, SecurityMutate(config, request).patched.value.fields))
            == SecurityMutate(config, request)
  {
    forall p | SecureSpec(config, p).Ok?
      ensures SecureSpec(config, SecureSpec(config, p).value) == SecureSpec(config, p)
    {
      SecureSpecTwice(config, p);
    }
    EditPodSpecTwice(request, p => SecureSpec(config, p));
  }

  // ---------------------------------------------------------------------
  // DefaultResourcesMutator
  // ---------------------------------------------------------------------

  /** The default requests and limits (`None` is the empty dict). */
  datatype ResourceDefaults = ResourceDefaults(requests: map<string, string>, limits: map<string, string>)

  /** `get_default_resources`: `requests` and `limits` only when non-empty. */
  function DefaultResources(config: ResourceDefaults): (r: map<string, Json>)
    ensures "requests" in r <==> |config.requests| > 0
    ensures "requests" in r ==> r["requests"] == JObj(StrValues(config.requests))
    ensures "limits" in r <==> |config.limits| > 0
    ensures "limits" in r ==> r["limits"] == JObj(StrValues(config.limits))
    ensures r.Keys <= {"requests", "limits"}
  {
    var withRequests := if |config.requests| > 0 then map["requests" := JObj(StrValues(config.requests))] else map[];
    if |config.limits| > 0 then withRequests["limits" := JObj(StrValues(config.limits))] else withRequests
  }

  /** Assigns the default resources to a container only when it has no
      `resources` entry (`in` on the container decides). */
  function AddResources(container: Json, resources: map<string, Json>): (r: Result<Json>)
    ensures container.JObj? && "resources" in container.fields ==> r == Ok(container)
    ensures container.JObj? && "resources" !in container.fields ==>
              r == Ok(JObj(container.fields["resources" := JObj(resources)]))
    ensures container.JStr? ==>
              r == (if Contains(container.s, "resources") then Ok(container) else Err(NoItemAssignment("str")))
    ensures r.Ok? && !container.JObj? ==> r.value == container
  {
    var present :- In("resources", container);
    if present then Ok(container) else SetItem(container, "resources", JObj(resources))
  }

  function AddResourcesEdit(config: ResourceDefaults): Json -> Result<Json> {
    c => AddResources(c, DefaultResources(config))
  }

  /** A `str` the loop visits is left alone when it contains `resources`. */
  function MentionsResources(): string -> bool {
    s => Contains(s, "resources")
  }

  /** The edit of the located pod spec: give every container that lacks a
      `resources` entry the defaults. */
  function ResourceSpec(config: ResourceDefaults, podSpec: Json): (r: Result<Json>)
    ensures r.Ok? ==> podSpec.JObj? && r.value.JObj? && r.value.fields.Keys == podSpec.fields.Keys
    ensures r.Ok? ==> forall k :: k in podSpec.fields && k != "containers" ==> r.value.fields[k] == podSpec.fields[k]
    ensures r.Ok? && ContainersOf(podSpec.fields).JArr? ==>
              var xs := ContainersOf(podSpec.fields).items;
              && ContainersOf(r.value.fields).JArr? && |ContainersOf(r.value.fields).items| == |xs|
              && forall i :: 0 <= i < |xs| ==>
                   ContainersOf(r.value.fields).items[i]
                   == (if xs[i].JObj? && "resources" !in xs[i].fields
                       then JObj(xs[i].fields["resources" := JObj(DefaultResources(config))])
                       else xs[i])
    ensures (podSpec.JObj? && ContainersOf(podSpec.fields).JArr?
             && forall c :: c in ContainersOf(podSpec.fields).items ==> c.JObj?) ==> r.Ok?
  {
    var containers :- Get(podSpec, "containers", JArr([]));
    var containers' :- EditContainers(containers, AddResourcesEdit(config), MentionsResources());
    Ok(ReplaceIfPresent(podSpec, "containers", containers'))
  }

  /** Adding resources to a container twice adds them once. */
  lemma AddResourcesTwice(config: ResourceDefaults)
    ensures forall c :: AddResourcesEdit(config)(c).Ok? ==>
              AddResourcesEdit(config)(AddResourcesEdit(config)(c).value) == AddResourcesEdit(config)(c)
  {
    forall c | AddResourcesEdit(config)(c).Ok?
      ensures AddResourcesEdit(config)(AddResourcesEdit(config)(c).value) == AddResourcesEdit(config)(c)
    {
      if c.JObj? && "resources" !in c.fields {
        assert "resources" in AddResourcesEdit(config)(c).value.fields;
      }
    }
  }

  /** A pod spec whose containers the containers loop leaves alone is left
      alone. */
  lemma ResourceSpecFixed(config: ResourceDefaults, podSpec: map<string, Json>)
    requires EditContainers(ContainersOf(podSpec), AddResourcesEdit(config), MentionsResources()) == Ok(ContainersOf(podSpec))
    ensures ResourceSpec(config, JObj(podSpec)) == Ok(JObj(podSpec))
  {
    if "containers" in podSpec {
      StoreSame(podSpec, "containers", podSpec["containers"]);
    }
  }

  /** Adding resources where they are absent a second time changes
      nothing. */
  lemma ResourceSpecTwice(config: ResourceDefaults, podSpec: Json)
    requires ResourceSpec(config, podSpec).Ok?
    ensures ResourceSpec(config, ResourceSpec(config, podSpec).value) == ResourceSpec(config, podSpec)
  {
    var edit := AddResourcesEdit(config);
    var containers := EditContainers(ContainersOf(podSpec.fields), edit, MentionsResources()).value;
    var once := ReplaceIfPresent(podSpec, "containers", containers).fields;
    assert ResourceSpec(config, podSpec) == Ok(JObj(once));
    assert EditContainers(ContainersOf(once), edit, MentionsResources()) == Ok(ContainersOf(once)) by {
      if "containers" in podSpec.fields {
        assert ContainersOf(once) == containers;
        AddResourcesTwice(config);
        EditContainersTwice(ContainersOf(podSpec.fields), edit, MentionsResources());
      } else {
        assert ContainersOf(once) == JArr([]);
      }
    }
    ResourceSpecFixed(config, once);
  }

  /** `DefaultResourcesMutator.mutate`. */
  function ResourcesMutate(config: ResourceDefaults, request: Request): (r: MutationResult)
    ensures !SupportedKind(request.kind) ==> r == NotMutated
    ensures SupportedKind(request.kind) && r.mutated ==>
              && r.message == None && r.patched.Some? && r.patched.value.JObj?
              && var p := LocatePodSpec(request.kind, request.obj);
                 p.Ok? && LocatePodSpec(request.kind, r.patched.value.fields) == ResourceSpec(config, p.value)
    ensures r.mutated ==> "spec" in r.patched.value.fields && KeepsOthers(request.obj, r.patched.value.fields, {"spec"})
    ensures r.mutated ==> SameOutsidePodSpec(request.kind, request.obj, r.patched.value.fields)
    ensures SupportedKind(request.kind) && !r.mutated ==> r.patched == None && r.message.Some?
  {
    Outcome(request.kind, EditPodSpec(request, p => ResourceSpec(config, p)))
  }

  /** A Pod or Deployment whose pod spec is a dict holding a list of dict
      containers, stored where the kind keeps it, gets its default resources
      and is reported mutated. */
  lemma ResourcesMutatesWellFormed(config: ResourceDefaults, request: Request, spec: map<string, Json>)
    requires SupportedKind(request.kind) && LocatePodSpec(request.kind, request.obj) == Ok(JObj(spec))
    requires request.kind == Deployment ==>
               && "spec" in request.obj && request.obj["spec"].JObj? && "template" in request.obj["spec"].fields
               && request.obj["spec"].fields["template"].JObj?
    requires ContainersOf(spec).JArr? && forall c :: c in ContainersOf(spec).items ==> c.JObj?
    ensures ResourcesMutate(config, request).mutated
  {
  }

  /** Applying the resources mutator to its own result changes nothing. */
  lemma ResourcesTwice(config: ResourceDefaults, request: Request)
    requires ResourcesMutate(config, request).mutated
    ensures ResourcesMutate(config, Request(request.kind, ResourcesMutate(config, request).patched.value.fields))
            == ResourcesMutate(config, request)
  {
    forall p | ResourceSpec(config, p).Ok?
      ensures ResourceSpec(config, ResourceSpec(config, p).value) == ResourceSpec(config, p)
    {
      ResourceSpecTwice(config, p);
    }
    EditPodSpecTwice(request, p => ResourceSpec(config, p));
  }
}

=== FILE: image_policy.dfy ===
/** `validators/image_policy.py`: the image-policy rule that the validator
    chain runs. Unlike the older rule in `validators/security.py`, it allows
    only `docker.io` unless told otherwise, reads a missing registry as
    `docker.io`, rejects an empty image, and treats an image without a tag as
    using the latest one. */
module ImagePolicy {
  import opened Py
  import opened Json
  import opened Strings
  import opened ValidatorBase
  import opened PodRules
  import Security

  const DockerHub := "docker.io"
  const ImagePassed := "Image policy validation passed"
  const ImageErrorPrefix := "Image policy validation error: "

  /** The allowed registries and whether the latest tag is refused. */
  datatype ImagePolicyConfig = ImagePolicyConfig(allowedRegistries: seq<string>, denyLatestTag: bool)

  /** `ImagePolicyValidator(allowed_registries, deny_latest_tag)`:
      `allowed_registries or ["docker.io"]`. */
  function NewImagePolicy(allowedRegistries: Option<seq<string>>, denyLatestTag: bool): (c: ImagePolicyConfig)
    ensures |c.allowedRegistries| > 0
    ensures allowedRegistries.Some? && |allowedRegistries.value| > 0 ==> c.allowedRegistries == allowedRegistries.value
    ensures allowedRegistries == None || allowedRegistries == Some([]) ==> c.allowedRegistries == [DockerHub]
    ensures c.denyLatestTag == denyLatestTag
  {
    var given := if allowedRegistries.Some? then allowedRegistries.value else [];
    ImagePolicyConfig(if |given| > 0 then given else [DockerHub], denyLatestTag)
  }

  /** The constructor's defaults: only `docker.io`, latest tag refused. */
  const DefaultImagePolicy := NewImagePolicy(None, true)

  function NoImage(name: string): string {
    "Container " + name + " has no image specified"
  }

  function RegistryNotAllowed(registry: string, allowed: seq<string>): string {
    "Registry " + registry + " is not allowed. Allowed registries: " + Join(", ", allowed)
  }

  function LatestNotAllowed(image: string): string {
    "Latest tag is not allowed for image " + image
  }

  /** The registry an image names: the text before its first `/`, or
      `docker.io` for an image without one. */
  function RegistryOf(image: string): (r: string)
    ensures '/' !in r
    ensures '/' in image ==> |r| < |image| && r == image[..|r|] && image[|r|] == '/'
    ensures '/' !in image ==> r == DockerHub
  {
    if '/' in image then Before(image, '/') else DockerHub
  }

  /** The image counts as using the latest tag: it says `:latest`, or it
      has no tag at all. */
  predicate LatestTag(image: string) {
    Contains(image, ":latest") || ':' !in image
  }

  /** The finding for a container called `name` whose image is the string
      `image`: an empty image first, then the registry, then the tag. */
  function ImageFinding(config: ImagePolicyConfig, name: string, image: string): (r: Option<string>)
    ensures r == None <==> && |image| > 0
                           && RegistryOf(image) in config.allowedRegistries
                           && !(config.denyLatestTag && LatestTag(image))
    ensures |image| == 0 ==> r == Some(NoImage(name))
    ensures |image| > 0 && RegistryOf(image) !in config.allowedRegistries ==>
              r == Some(RegistryNotAllowed(RegistryOf(image), config.allowedRegistries))
  {
    if |image| == 0 then Some(NoImage(name))
    else if RegistryOf(image) !in config.allowedRegistries then
      Some(RegistryNotAllowed(RegistryOf(image), config.allowedRegistries))
    else if config.denyLatestTag && LatestTag(image) then Some(LatestNotAllowed(image))
    else None
  }

  /** The registry check of the loop body for a truthy image:
      `"/" in image` raises for a scalar, and `split` for anything but a
      string. */
  function RegistryCheck(config: ImagePolicyConfig, image: Json): (r: Result<Option<string>>)
    ensures image.JStr? ==>
              r == Ok(if RegistryOf(image.s) in config.allowedRegistries then None
                      else Some(RegistryNotAllowed(RegistryOf(image.s), config.allowedRegistries)))
    ensures !IsContainer(image) ==> r == Err(NotContainer(TypeName(image)))
  {
    var hasSlash :- In("/", image);
    var registry :- if hasSlash then SplitFirst(image, '/') else Ok(DockerHub);
    if image.JStr? then ContainsChar(image.s, '/'); RegistryOutcome(config, registry)
    else RegistryOutcome(config, registry)
  }

  function RegistryOutcome(config: ImagePolicyConfig, registry: string): Result<Option<string>> {
    if registry in config.allowedRegistries then Ok(None)
    else Ok(Some(RegistryNotAllowed(registry, config.allowedRegistries)))
  }

  /** The tag check of the loop body, for an image whose registry passed
      (so `in` no longer raises on it). */
  function TagCheck(config: ImagePolicyConfig, image: Json): (r: Option<string>)
    ensures image.JStr? ==> r == (if config.denyLatestTag && LatestTag(image.s) then Some(LatestNotAllowed(image.s)) else None)
  {
    if image.JStr? then ContainsChar(image.s, ':'); TagOutcome(config, image)
    else TagOutcome(config, image)
  }

  function TagOutcome(config: ImagePolicyConfig, image: Json): Option<string> {
    if config.denyLatestTag && (Member(":latest", image) || !Member(":", image)) then Some(LatestNotAllowed(Str(image)))
    else None
  }

  /** The loop body after `image = container.get("image", "")`, for a
      container called `name`. */
  function CheckImageValue(config: ImagePolicyConfig, name: string, image: Json): (r: Result<Option<string>>)
    ensures image.JStr? ==> r == Ok(ImageFinding(config, name, image.s))
    ensures Truthy(image) && !IsContainer(image) ==> r == Err(NotContainer(TypeName(image)))
  {
    if !Truthy(image) then Ok(Some(NoImage(name)))
    else
      var registryError :- RegistryCheck(config, image);
      if registryError.Some? then Ok(registryError) else Ok(TagCheck(config, image))
  }

  /** The loop body of `_validate` for one container, on whatever value its
      `image` entry holds. */
  function CheckImage(config: ImagePolicyConfig, container: Json): (r: Result<Option<string>>)
    ensures !container.JObj? ==> r == Err(NoAttribute(TypeName(container), "get"))
    ensures container.JObj? && "image" !in container.fields ==> r == Ok(Some(NoImage(NameOf(container))))
    ensures container.JObj? && "image" in container.fields && container.fields["image"].JStr? ==>
              r == Ok(ImageFinding(config, NameOf(container), container.fields["image"].s))
  {
    var image :- Get(container, "image", JStr(""));
    CheckImageValue(config, NameOf(container), image)
  }

  function ImageCheck(config: ImagePolicyConfig): Json -> Result<Option<string>> {
    c => CheckImage(config, c)
  }

  /** `ImagePolicyValidator._validate`. */
  function ValidateImages(config: ImagePolicyConfig, request: Json): (r: ValidationResult)
    ensures LacksSpec(request) ==> r == Deny(InvalidPodSpec)
    ensures r.allowed ==> r == Pass(ImagePassed) && SpecFields(request).Some?
    ensures SpecFields(request).Some? && ContainersOf(SpecFields(request).value).JArr? ==>
              var xs := ContainersOf(SpecFields(request).value).items;
              (r.allowed <==> forall i :: 0 <= i < |xs| ==> CheckImage(config, xs[i]) == Ok(None))
  {
    ScanPod(request, ImageCheck(config), ImagePassed, ImageErrorPrefix)
  }

  /** The first container in declaration order whose image is refused
      decides the denial. */
  lemma ImageFirstFinding(config: ImagePolicyConfig, request: Json, i: nat, message: string)
    requires SpecFields(request).Some? && ContainersOf(SpecFields(request).value).JArr?
    requires i < |ContainersOf(SpecFields(request).value).items|
    requires CheckImage(config, ContainersOf(SpecFields(request).value).items[i]) == Ok(Some(message))
    requires forall j :: 0 <= j < i ==> CheckImage(config, ContainersOf(SpecFields(request).value).items[j]) == Ok(None)
    ensures ValidateImages(config, request) == Deny(message)
  {
    ScanPodFirstFinding(request, ImageCheck(config), ImagePassed, ImageErrorPrefix, i, message);
  }

  /** An image this rule accepts while refusing the latest tag names a tag,
      and not the latest one. */
  lemma AcceptedImageIsTagged(config: ImagePolicyConfig, name: string, image: string)
    requires config.denyLatestTag && ImageFinding(config, name, image) == None
    ensures ':' in image && !Contains(image, ":latest")
  {
  }

  /** The two image rules disagree on an untagged image: refusing the
      latest tag with no allow-list, the older rule accepts `nginx`, which
      this rule refuses by default. */
  lemma UntaggedImageRulesDisagree()
    ensures Security.ValidateImage(Security.LegacyImageConfig([], true), "nginx") == None
    ensures ImageFinding(DefaultImagePolicy, "web", "nginx") == Some(LatestNotAllowed("nginx"))
  {
    Security.LegacyUntaggedImageKeepsTag(Security.LegacyImageConfig([], true), "nginx");
  }

  /** The two image rules disagree on a tagged image without a registry:
      allowing only `docker.io`, the older rule takes `nginx:1.25` to name
      the registry `nginx:1.25` and refuses it, while this rule reads it as
      a tagged Docker Hub image and accepts it. */
  lemma RegistrylessImageRulesDisagree()
    ensures Security.ValidateImage(Security.LegacyImageConfig([DockerHub], true), "nginx:1.25")
            == Some(Security.RegistryNotAllowed("nginx:1.25"))
    ensures ImageFinding(DefaultImagePolicy, "web", "nginx:1.25") == None
  {
    var image := "nginx:1.25";
    assert '/' !in image && image[5] == ':' && 'l' !in image;
    MissingCharNoMatch(image, ":latest", 'l');
  }
}

=== FILE: json.dfy ===
/** The schema-less resource object the webhook inspects, as the parsed JSON
    value Python holds, with the Python operations the core applies to it:
    truthiness, `d.get(k, default)`, `k in x`, `x[k]`, `x[k] = v`, `for e in x`,
    `x == 0` and `str(x)`. Each operation raises, as a `PyError`, exactly where
    Python would for a value of the wrong shape. */
module Json {
  import opened Py
  import opened Strings

  datatype Json =
    | JNull
    | JBool(b: bool)
    | JInt(i: int)
    | JStr(s: string)
    | JArr(items: seq<Json>)
    | JObj(fields: map<string, Json>)

  /** A fresh `{}`. */
  const EmptyDict: Json := JObj(map[])

  /** `type(x).__name__`. */
  function TypeName(v: Json): string {
    match v
    case JNull => "NoneType"
    case JBool(_) => "bool"
    case JInt(_) => "int"
    case JStr(_) => "str"
    case JArr(_) => "list"
    case JObj(_) => "dict"
  }

  /** `bool(x)`: None, False, 0 and empty containers are false. */
  predicate Truthy(v: Json) {
    match v
    case JNull => false
    case JBool(b) => b
    case JInt(i) => i != 0
    case JStr(s) => |s| > 0
    case JArr(xs) => |xs| > 0
    case JObj(m) => |m| > 0
  }

  /** `d.get(key, default)` for a value already known to be a dict. */
  function Field(m: map<string, Json>, key: string, default: Json): Json {
    if key in m then m[key] else default
  }

  /** `x.get(key, default)`: only a dict has `get`. */
  function Get(v: Json, key: string, default: Json): (r: Result<Json>)
    ensures r.Ok? <==> v.JObj?
    ensures v.JObj? ==> r == Ok(Field(v.fields, key, default))
  {
    match v
    case JObj(m) => Ok(Field(m, key, default))
    case _ => Err(NoAttribute(TypeName(v), "get"))
  }

  /** `x[key]` with a string key. */
  function GetItem(v: Json, key: string): (r: Result<Json>)
    ensures r.Ok? <==> v.JObj? && key in v.fields
    ensures r.Ok? ==> r.value == v.fields[key]
  {
    match v
    case JObj(m) => if key in m then Ok(m[key]) else Err(MissingKey(key))
    case JArr(_) => Err(ListIndexNotInt)
    case JStr(_) => Err(StrIndexNotInt)
    case _ => Err(NotSubscriptable(TypeName(v)))
  }

  /** `x[key] = value` with a string key; the result is the edited `x`. */
  function SetItem(v: Json, key: string, value: Json): (r: Result<Json>)
    ensures r.Ok? <==> v.JObj?
    ensures v.JObj? ==> r == Ok(JObj(v.fields[key := value]))
  {
    match v
    case JObj(m) => Ok(JObj(m[key := value]))
    case JArr(_) => Err(ListIndexNotInt)
    case _ => Err(NoItemAssignment(TypeName(v)))
  }

  /** The values Python's `in` accepts on its right: dict, list and str. */
  predicate IsContainer(v: Json) {
    v.JObj? || v.JArr? || v.JStr?
  }

  /** What `key in x` answers for a container: a dict tests its keys, a list
      compares its elements with the string, a string searches for a
      substring. */
  predicate Member(key: string, v: Json) {
    match v
    case JObj(m) => key in m
    case JArr(xs) => JStr(key) in xs
    case JStr(s) => Contains(s, key)
    case _ => false
  }

  /** `key in x`: raises for a value that is not a container. */
  function In(key: string, v: Json): (r: Result<bool>)
    ensures r.Ok? <==> IsContainer(v)
    ensures r.Ok? ==> r.value == Member(key, v)
    ensures v.JObj? ==> r == Ok(key in v.fields)
  {
    if IsContainer(v) then Ok(Member(key, v)) else Err(NotContainer(TypeName(v)))
  }

  /** `x == 0`: true of `0` and, since `bool` is a subclass of `int`, of `False`. */
  predicate EqualsZero(v: Json) {
    v == JInt(0) || v == JBool(false)
  }

  /** `x.split(sep)[0]` for a one-character separator: only a string has `split`. */
  function SplitFirst(v: Json, sep: char): (r: Result<string>)
    ensures r.Ok? <==> v.JStr?
    ensures v.JStr? ==> r == Ok(Before(v.s, sep))
  {
    match v
    case JStr(s) => Ok(Before(s, sep))
    case _ => Err(NoAttribute(TypeName(v), "split"))
  }

  /** `str(x)` as an f-string renders it. A list or a dict is rendered by a
      placeholder: the model's dicts carry no insertion order to print. */
  function Str(v: Json): string {
    match v
    case JNull => "None"
    case JBool(b) => if b then "True" else "False"
    case JInt(i) => IntToDecimal(i)
    case JStr(s) => s
    case JArr(_) => "[...]"
    case JObj(_) => "{...}"
  }

  /** What `for e in x` visits. A list visits its items; a dict visits its
      keys and a string its one-character substrings, all of them `str`
      values, kept as the set of those strings: every loop of the core either
      raises on the first such element or leaves it alone, so their order
      does not affect the outcome. Anything else raises. */
  datatype Iteration = Items(items: seq<Json>) | Strings(strs: set<string>)

  function Iterate(v: Json): (r: Result<Iteration>)
    ensures r.Ok? <==> v.JArr? || v.JObj? || v.JStr?
    ensures v.JArr? ==> r == Ok(Items(v.items))
    ensures v.JObj? ==> r == Ok(Strings(v.fields.Keys))
    ensures r.Ok? && r.value.Strings? ==> (r.value.strs == {} <==> !Truthy(v))
  {
    match v
    case JArr(xs) => Ok(Items(xs))
    case JObj(m) => Ok(Strings(m.Keys))
    case JStr(s) =>
      var chars := set i | 0 <= i < |s| :: [s[i]];
      assert |s| > 0 ==> [s[0]] in chars;
      Ok(Strings(chars))
    case _ => Err(NotIterable(TypeName(v)))
  }

  /** A configuration `Dict[str, str]` as the JSON object it becomes once
      stored into the resource. */
  function StrValues(m: map<string, string>): (r: map<string, Json>)
    ensures r.Keys == m.Keys
    ensures forall k :: k in m ==> r[k] == JStr(m[k])
  {
    map k | k in m :: JStr(m[k])
  }

  /** The value found by following dict keys `path` from `v`, if every step
      is a dict holding the key. */
  function Lookup(v: Json, path: seq<string>): Option<Json>
    decreases |path|
  {
    if |path| == 0 then Some(v)
    else match v
      case JObj(m) => if path[0] in m then Lookup(m[path[0]], path[1..]) else None
      case _ => None
  }
}

=== FILE: mutator_base.dfy ===
/** The mutator base class: the result a mutator returns, and the patch
    record with the step of `encode_patches` that turns each patch into a
    dict without its `None` fields. */
module MutatorBase {
  import opened Py
  import opened Json

  /** Whether the mutator changed the object, the object it returns, and a
      message (the text of an exception, when one was caught). The chain
      stores a list of objects in `patched`, which here is a JSON list. */
  datatype MutationResult = MutationResult(mutated: bool, patched: Option<Json>, message: Option<string>)

  /** `MutationResult(mutated=False)`: the answer for a kind the mutators
      leave alone. */
  const NotMutated := MutationResult(false, None, None)

  /** `MutationResult(mutated=False, message=str(e))`. */
  function Failed(e: PyError): MutationResult {
    MutationResult(false, None, Some(e.Text()))
  }

  /** `MutationResult(mutated=True, patched=obj)`. */
  function Mutated(obj: map<string, Json>): MutationResult {
    MutationResult(true, Some(JObj(obj)), None)
  }

  /** A JSON Patch operation; a `value` of `JNull` is Python's `None`, the
      field's default. */
  datatype MutationPatch = MutationPatch(op: string, path: string, value: Json)

  /** `patch.dict(exclude_none=True)`: `op` and `path` always, `value` only
      when it is not `None`. */
  function PatchDict(patch: MutationPatch): (r: map<string, Json>)
    ensures "op" in r && r["op"] == JStr(patch.op)
    ensures "path" in r && r["path"] == JStr(patch.path)
    ensures "value" in r <==> patch.value != JNull
    ensures "value" in r ==> r["value"] == patch.value
    ensures r.Keys <= {"op", "path", "value"}
  {
    var fields := map["op" := JStr(patch.op), "path" := JStr(patch.path)];
    if patch.value == JNull then fields else fields["value" := patch.value]
  }

  /** The list of patch dicts `encode_patches` serialises, in patch order. */
  function PatchDicts(patches: seq<MutationPatch>): (r: seq<Json>)
    ensures |r| == |patches|
    ensures forall i :: 0 <= i < |patches| ==> r[i] == JObj(PatchDict(patches[i]))
  {
    seq(|patches|, i requires 0 <= i < |patches| => JObj(PatchDict(patches[i])))
  }

  /** Reads a patch back from its dict: `op` and `path` must be strings, and
      a missing `value` is `None`. */
  function PatchFromDict(d: Json): Option<MutationPatch> {
    if d.JObj? && "op" in d.fields && d.fields["op"].JStr? && "path" in d.fields && d.fields["path"].JStr?
    then Some(MutationPatch(d.fields["op"].s, d.fields["path"].s, Field(d.fields, "value", JNull)))
    else None
  }

  /** Reads a list of patch dicts back, failing if any entry is not one. */
  function PatchesFromDicts(ds: seq<Json>): Option<seq<MutationPatch>>
    decreases |ds|
  {
    if |ds| == 0 then Some([])
    else match (PatchFromDict(ds[0]), PatchesFromDicts(ds[1..]))
      case (Some(p), Some(ps)) => Some([p] + ps)
      case _ => None
  }

  /** Dropping `None` loses nothing: each patch can be read back from its
      dict. */
  lemma PatchDictRoundTrip(patch: MutationPatch)
    ensures PatchFromDict(JObj(PatchDict(patch))) == Some(patch)
  {
  }

  /** The list of dicts gives back the patches, in the same order. */
  lemma {:induction false} PatchDictsRoundTrip(patches: seq<MutationPatch>)
    ensures PatchesFromDicts(PatchDicts(patches)) == Some(patches)
    decreases |patches|
  {
    if |patches| > 0 {
      var ds := PatchDicts(patches);
      assert ds[1..] == PatchDicts(patches[1..]);
      PatchDictRoundTrip(patches[0]);
      PatchDictsRoundTrip(patches[1..]);
      assert [patches[0]] + patches[1..] == patches;
    }
  }
}

=== FILE: mutator_chain.dfy ===
/** `MutatorChain` from `mutators/base.py`, over the three mutators of
    `mutators/defaults.py`. Every mutator edits the one object of the request
    in place, so each sees what the ones before it did; the first result
    that is not mutated ends the run and is the chain's answer. */
module MutatorChain {
  import opened Py
  import opened Json
  import opened Admission
  import opened MutatorBase
  import opened Defaults

  /** The mutators of `mutators/defaults.py`, each with its configuration.
      None overrides `supports`, which is true for every request, so the
      chain never skips one. */
  datatype Mutator =
    | LabelsMutator(labels: LabelsConfig)
    | SecurityMutator(security: SecurityDefaults)
    | ResourcesMutator(resources: ResourceDefaults)

  /** `mutator.mutate(request)`. */
  function Mutate(m: Mutator, request: Request): (r: MutationResult)
    ensures !SupportedKind(request.kind) ==> r == NotMutated
    ensures r.mutated ==> && r.message == None && r.patched.Some? && r.patched.value.JObj?
                          && |r.patched.value.fields| > 0
    ensures !r.mutated ==> r.patched == None
  {
    match m
    case LabelsMutator(config) => LabelsMutate(config, request)
    case SecurityMutator(config) => SecurityMutate(config, request)
    case ResourcesMutator(config) => ResourcesMutate(config, request)
  }

  /** What the chain relies on from a mutator's result: a mutated result
      carries a non-empty object and no message, and an unmutated one
      carries no object. */
  predicate Reports(r: MutationResult) {
    && (r.mutated ==> r.message == None && r.patched.Some? && r.patched.value.JObj? && |r.patched.value.fields| > 0)
    && (!r.mutated ==> r.patched == None)
  }

  /** Every concrete mutator reports in that shape. */
  lemma MutateReports()
    ensures forall m, request :: Reports(Mutate(m, request))
  {
  }

  /** How a run of the loop ends: returning the first result that is not
      mutated, or finishing with the object as the last mutator left it and
      the list of truthy `patched` values collected on the way. */
  datatype Run = Stopped(result: MutationResult) | Finished(obj: map<string, Json>, patches: seq<Json>)

  /** The loop of `MutatorChain.mutate` from the object `obj`, for any
      `step` that runs one mutator on a request. */
  function Thread<M(!new)>(mutators: seq<M>, step: (M, Request) -> MutationResult, kind: string, obj: map<string, Json>)
    : (r: Run)
    requires forall m, request :: Reports(step(m, request))
    ensures r.Stopped? ==> |mutators| > 0 && !r.result.mutated && r.result.patched == None
    ensures r.Finished? ==> && |r.patches| == |mutators|
                            && (forall i :: 0 <= i < |r.patches| ==> r.patches[i].JObj?)
                            && (|mutators| == 0 ==> r.obj == obj)
                            && (|mutators| > 0 ==> r.patches[|mutators| - 1] == JObj(r.obj))
    decreases |mutators|
  {
    if |mutators| == 0 then Finished(obj, [])
    else
      var result := step(mutators[0], Request(kind, obj));
      assert Reports(result);
      if !result.mutated then Stopped(result)
      else
        var patch := result.patched.value;
        assert patch == JObj(patch.fields) && Truthy(patch);
        match Thread(mutators[1..], step, kind, patch.fields)
        case Stopped(stop) => Stopped(stop)
        case Finished(final, patches) =>
          Finished(final, (if Truthy(patch) then [patch] else []) + patches)
  }

  /** Running two lists of mutators one after the other is running their
      concatenation: the second starts from the object the first finished
      with. */
  lemma {:induction false} ThreadComposes<M(!new)>(first: seq<M>, second: seq<M>, step: (M, Request) -> MutationResult,
                                             kind: string, obj: map<string, Json>)
    requires forall m, request :: Reports(step(m, request))
    ensures Thread(first + second, step, kind, obj)
            == match Thread(first, step, kind, obj)
               case Stopped(stop) => Stopped(stop)
               case Finished(middle, patches) =>
                 match Thread(second, step, kind, middle)
                 case Stopped(stop) => Stopped(stop)
                 case Finished(final, more) => Finished(final, patches + more)
    decreases |first|
  {
    if |first| == 0 {
      assert first + second == second;
      match Thread(second, step, kind, obj)
      case Stopped(_) =>
      case Finished(final, more) => assert [] + more == more;
    } else {
      assert (first + second)[0] == first[0];
      assert (first + second)[1..] == first[1..] + second;
      var result := step(first[0], Request(kind, obj));
      if result.mutated {
        ThreadComposes(first[1..], second, step, kind, result.patched.value.fields);
        match Thread(first[1..], step, kind, result.patched.value.fields)
        case Stopped(_) =>
        case Finished(middle, patches) =>
          match Thread(second, step, kind, middle)
          case Stopped(_) =>
          case Finished(final, more) =>
            assert [result.patched.value] + (patches + more) == ([result.patched.value] + patches) + more;
      }
    }
  }

  /** A single mutator: its own result when it is not mutated, otherwise
      its object, once, as the only patch. */
  lemma ThreadOne<M(!new)>(m: M, step: (M, Request) -> MutationResult, kind: string, obj: map<string, Json>)
    requires forall m, request :: Reports(step(m, request))
    ensures var r := step(m, Request(kind, obj));
            Thread([m], step, kind, obj)
            == if r.mutated then Finished(r.patched.value.fields, [r.patched.value]) else Stopped(r)
  {
    assert [m][1..] == [];
  }

  /** Two mutators: the second runs on the object the first returned. */
  lemma ThreadTwo<M(!new)>(m1: M, m2: M, step: (M, Request) -> MutationResult, kind: string, obj: map<string, Json>)
    requires forall m, request :: Reports(step(m, request))
    requires step(m1, Request(kind, obj)).mutated
    ensures Reports(step(m1, Request(kind, obj)))
    ensures var o1 := step(m1, Request(kind, obj)).patched.value;
            var r2 := step(m2, Request(kind, o1.fields));
            Thread([m1, m2], step, kind, obj)
            == if r2.mutated then Finished(r2.patched.value.fields, [o1, r2.patched.value]) else Stopped(r2)
  {
    var o1 := step(m1, Request(kind, obj)).patched.value;
    var r2 := step(m2, Request(kind, o1.fields));
    assert [m1, m2][0] == m1 && [m1, m2][1..] == [m2];
    ThreadOne(m2, step, kind, o1.fields);
    if r2.mutated {
      assert [o1] + [r2.patched.value] == [o1, r2.patched.value];
    }
  }

  /** The first step whose result is not mutated ends the run with that
      result; the steps after it do not matter. */
  lemma ThreadStopsAt<M(!new)>(before: seq<M>, m: M, after: seq<M>, step: (M, Request) -> MutationResult,
                               kind: string, obj: map<string, Json>)
    requires forall m, request :: Reports(step(m, request))
    requires Thread(before, step, kind, obj).Finished?
    requires !step(m, Request(kind, Thread(before, step, kind, obj).obj)).mutated
    ensures Thread(before + [m] + after, step, kind, obj)
            == Stopped(step(m, Request(kind, Thread(before, step, kind, obj).obj)))
  {
    var middle := Thread(before, step, kind, obj).obj;
    var stop := step(m, Request(kind, middle));
    assert Thread([m] + after, step, kind, middle) == Stopped(stop) by {
      assert ([m] + after)[0] == m;
    }
    assert before + [m] + after == before + ([m] + after);
    ThreadComposes(before, [m] + after, step, kind, obj);
  }

  /** The loop over the concrete mutators. */
  function RunAll(mutators: seq<Mutator>, request: Request): (r: Run)
    ensures r == Thread(mutators, Mutate, request.kind, request.obj)
  {
    MutateReports();
    Thread(mutators, Mutate, request.kind, request.obj)
  }

  /** `MutatorChain.mutate` as intended: `patched` holds the list of the
      mutators' results, or `None` when there is none. */
  function Chain(mutators: seq<Mutator>, request: Request): (r: MutationResult)
    ensures !r.mutated ==> |mutators| > 0 && r.patched == None
    ensures r.mutated ==> && r.message == None
                          && (r.patched == None <==> |mutators| == 0)
                          && (|mutators| > 0 ==> r.patched.value.JArr? && |r.patched.value.items| == |mutators|)
    ensures |mutators| == 0 ==> r == MutationResult(true, None, None)
    ensures !SupportedKind(request.kind) && |mutators| > 0 ==> r == NotMutated
  {
    match RunAll(mutators, request)
    case Stopped(result) => result
    case Finished(_, patches) => MutationResult(true, if |patches| > 0 then Some(JArr(patches)) else None, None)
  }

  /** The chain's last patch is the object as every mutator in turn left
      it. */
  lemma ChainEndsWithFinalObject(mutators: seq<Mutator>, request: Request)
    requires |mutators| > 0 && Chain(mutators, request).mutated
    ensures var run := RunAll(mutators, request);
            && run.Finished?
            && Chain(mutators, request).patched == Some(JArr(run.patches))
            && run.patches[|mutators| - 1] == JObj(run.obj)
  {
  }

  /** Each mutator works on the object the one before it returned. */
  lemma ChainOfTwo(m1: Mutator, m2: Mutator, request: Request)
    requires Mutate(m1, request).mutated
    ensures var o1 := Mutate(m1, request).patched.value;
            var r2 := Mutate(m2, Request(request.kind, o1.fields));
            Chain([m1, m2], request)
            == if r2.mutated then MutationResult(true, Some(JArr([o1, r2.patched.value])), None) else r2
  {
    assert request == Request(request.kind, request.obj);
    MutateReports();
    ThreadTwo(m1, m2, Mutate, request.kind, request.obj);
  }

  /** The first mutator whose result is not mutated decides the answer; the
      mutators after it do not run. */
  lemma ChainStopsAtFirstFailure(before: seq<Mutator>, m: Mutator, after: seq<Mutator>, request: Request)
    requires RunAll(before, request).Finished?
    requires !Mutate(m, Request(request.kind, RunAll(before, request).obj)).mutated
    ensures Chain(before + [m] + after, request) == Mutate(m, Request(request.kind, RunAll(before, request).obj))
  {
    MutateReports();
    ThreadStopsAt(before, m, after, Mutate, request.kind, request.obj);
  }

  /** `MutatorChain.mutate` as written: its `MutationResult` declares
      `patched` a dict, so pydantic refuses the non-empty list of patches
      with a validation error. */
  datatype ChainOutcome = Returned(result: MutationResult) | PatchedNotADict

  function ChainAsWritten(mutators: seq<Mutator>, request: Request): (r: ChainOutcome)
    ensures r == PatchedNotADict <==> RunAll(mutators, request).Finished? && |mutators| > 0
    ensures r.Returned? ==> r.result == Chain(mutators, request)
  {
    match RunAll(mutators, request)
    case Stopped(result) => Returned(result)
    case Finished(_, patches) =>
      if |patches| > 0 then PatchedNotADict else Returned(MutationResult(true, None, None))
  }

  /** As written, a non-empty chain never returns a mutated result: it
      raises exactly where the intended chain reports the mutation. */
  lemma ChainAsWrittenNeverMutates(mutators: seq<Mutator>, request: Request)
    requires |mutators| > 0
    ensures ChainAsWritten(mutators, request).Returned? ==> !ChainAsWritten(mutators, request).result.mutated
    ensures ChainAsWritten(mutators, request) == PatchedNotADict <==> Chain(mutators, request).mutated
  {
  }

  /** The smallest case: one labels mutator with no defaults on an empty Pod
      object. */
  lemma EmptyPodChainRaises()
    ensures ChainAsWritten([LabelsMutator(LabelsConfig(map[], map[]))], Request(Pod, map[])) == PatchedNotADict
    ensures Chain([LabelsMutator(LabelsConfig(map[], map[]))], Request(Pod, map[]))
            == MutationResult(true, Some(JArr([JObj(map["metadata" := EmptyDict])])), None)
  {
    var m := LabelsMutator(LabelsConfig(map[], map[]));
    var pod: map<string, Json> := map["metadata" := EmptyDict];
    NoLabelsStillMutated(Request(Pod, map[]));
    assert Mutate(m, Request(Pod, map[])) == Mutated(pod);
    MutateReports();
    ThreadOne(m, Mutate, Pod, map[]);
  }
}

=== FILE: pod_rules.dfy ===
/** What the dict-based rules share: the preamble of their `_validate`
    (find `object`, insist on `spec`, read `spec.containers`), the ordered
    container loop that stops at the first finding, and how a container's
    name is rendered into a message. */
module PodRules {
  import opened Py
  import opened Json
  import opened ValidatorBase

  const InvalidPodSpec := "Invalid pod specification"

  /** What the preamble finds: no usable spec, or the spec and the value of
      its `containers` entry (`[]` when absent). */
  datatype PodView = NoSpec | PodSpec(spec: map<string, Json>, containers: Json)

  /** The object of `request` is missing, empty, or a dict without `spec`. */
  predicate LacksSpec(request: Json) {
    && request.JObj?
    && var pod := if "object" in request.fields then request.fields["object"] else EmptyDict;
       !Truthy(pod) || (pod.JObj? && "spec" !in pod.fields)
  }

  /** The fields of `request.object.spec` when that path consists of dicts. */
  function SpecFields(request: Json): Option<map<string, Json>> {
    if && request.JObj? && "object" in request.fields
       && request.fields["object"].JObj? && "spec" in request.fields["object"].fields
       && request.fields["object"].fields["spec"].JObj?
    then Some(request.fields["object"].fields["spec"].fields)
    else None
  }

  /** `spec.get("containers", [])` for a dict spec. */
  function ContainersOf(spec: map<string, Json>): Json {
    Field(spec, "containers", JArr([]))
  }

  /** The `_validate` preamble: the object (an empty dict when absent) must
      be truthy and hold `spec`; then the spec and its `containers` entry
      (an empty list when absent) are read. */
  function ReadPod(request: Json): (r: Result<PodView>)
    ensures LacksSpec(request) ==> r == Ok(NoSpec)
    ensures SpecFields(request).Some? ==>
              r == Ok(PodSpec(SpecFields(request).value, ContainersOf(SpecFields(request).value)))
    ensures r.Ok? && r.value.PodSpec? ==> SpecFields(request) == Some(r.value.spec)
                                          && r.value.containers == ContainersOf(r.value.spec)
  {
    var pod :- Get(request, "object", EmptyDict);
    if !Truthy(pod) then Ok(NoSpec)
    else
      var hasSpec :- In("spec", pod);
      if !hasSpec then Ok(NoSpec)
      else
        var spec :- Get(pod, "spec", EmptyDict);
        var containers :- Get(spec, "containers", JArr([]));
        Ok(PodSpec(spec.fields, containers))
  }

  /** Runs `check` on the containers in declaration order and stops at the
      first one that raises or reports a violation. */
  function FirstViolation(xs: seq<Json>, check: Json -> Result<Option<string>>): (r: Result<Option<string>>)
    ensures r == Ok(None) <==> forall i :: 0 <= i < |xs| ==> check(xs[i]) == Ok(None)
    ensures r != Ok(None) ==> exists i :: && 0 <= i < |xs| && check(xs[i]) == r
                                          && forall j :: 0 <= j < i ==> check(xs[j]) == Ok(None)
    decreases |xs|
  {
    assert forall i :: 1 <= i < |xs| ==> xs[1..][i - 1] == xs[i];
    if |xs| == 0 then Ok(None)
    else if check(xs[0]) != Ok(None) then check(xs[0])
    else FirstViolation(xs[1..], check)
  }

  /** The first container whose check does not come back clean decides. */
  lemma FirstViolationAt(xs: seq<Json>, check: Json -> Result<Option<string>>, i: nat)
    requires i < |xs| && check(xs[i]) != Ok(None)
    requires forall j :: 0 <= j < i ==> check(xs[j]) == Ok(None)
    ensures FirstViolation(xs, check) == check(xs[i])
  {
    var r := FirstViolation(xs, check);
    var k :| 0 <= k < |xs| && check(xs[k]) == r && forall j :: 0 <= j < k ==> check(xs[j]) == Ok(None);
  }

  /** `for container in containers:` for a loop body that begins with
      `container.get(...)`. A list visits its items; a dict or a string visits
      `str` values, and the first of them raises on `get`; an empty one
      visits nothing; a scalar is not iterable. */
  function ScanContainers(containers: Json, check: Json -> Result<Option<string>>): (r: Result<Option<string>>)
    ensures containers.JArr? ==> r == FirstViolation(containers.items, check)
    ensures (containers.JObj? || containers.JStr?) && !Truthy(containers) ==> r == Ok(None)
    ensures (containers.JObj? || containers.JStr?) && Truthy(containers) ==> r == Err(NoAttribute("str", "get"))
    ensures !(containers.JArr? || containers.JObj? || containers.JStr?) ==> r == Err(NotIterable(TypeName(containers)))
  {
    var iteration :- Iterate(containers);
    match iteration
    case Items(xs) => FirstViolation(xs, check)
    case Strings(strs) => if strs == {} then Ok(None) else Err(NoAttribute("str", "get"))
  }

  /** `container.get("resources", {})` for a dict container. */
  function ResourcesOf(container: map<string, Json>): Json {
    Field(container, "resources", EmptyDict)
  }

  /** `str(container.get('name'))` for a container already known to be a dict. */
  function NameOf(container: Json): string {
    if container.JObj? && "name" in container.fields then Str(container.fields["name"]) else "None"
  }

  /** A `_validate` that consists of the preamble and the container loop:
      deny an unusable spec, deny with the first container's finding, allow
      with `passed` when no container has one, and report an exception as a
      denial whose message is `errorPrefix` followed by its text. */
  function ScanPod(request: Json, check: Json -> Result<Option<string>>, passed: string, errorPrefix: string)
    : (r: ValidationResult)
    ensures LacksSpec(request) ==> r == Deny(InvalidPodSpec)
    ensures r.allowed ==> r == Pass(passed) && SpecFields(request).Some?
    ensures SpecFields(request).Some? && ContainersOf(SpecFields(request).value).JArr? ==>
              var xs := ContainersOf(SpecFields(request).value).items;
              (r.allowed <==> forall i :: 0 <= i < |xs| ==> check(xs[i]) == Ok(None))
    ensures r.warnings == None
  {
    var outcome: Result<Option<string>> :=
      var view :- ReadPod(request);
      match view
      case NoSpec => Ok(Some(InvalidPodSpec))
      case PodSpec(_, containers) => ScanContainers(containers, check);
    match outcome
    case Ok(None) => Pass(passed)
    case Ok(Some(message)) => Deny(message)
    case Err(e) => Deny(errorPrefix + e.Text())
  }

  /** The first container in declaration order with a finding decides the
      denial. */
  lemma ScanPodFirstFinding(request: Json, check: Json -> Result<Option<string>>, passed: string,
                            errorPrefix: string, i: nat, message: string)
    requires SpecFields(request).Some? && ContainersOf(SpecFields(request).value).JArr?
    requires i < |ContainersOf(SpecFields(request).value).items|
    requires check(ContainersOf(SpecFields(request).value).items[i]) == Ok(Some(message))
    requires forall j :: 0 <= j < i ==> check(ContainersOf(SpecFields(request).value).items[j]) == Ok(None)
    ensures ScanPod(request, check, passed, errorPrefix) == Deny(message)
  {
    FirstViolationAt(ContainersOf(SpecFields(request).value).items, check, i);
  }
}

=== FILE: py.dfy ===
/** Python-level notions the model of the webhook needs: optional values, the
    exceptions its dict and string operations raise on an unexpected object
    shape, and a result type carrying either a value or such an exception. */
module Py {

  /** Python's `Optional[T]`: `None` or a value. */
  datatype Option<+T> = None | Some(value: T)

  /** The exceptions the core's code can raise while it walks a schema-less
      object. `Text()` is what `str(e)` renders in CPython 3.11, which is the
      text every `except Exception as e` branch of the core copies into its
      message. */
  datatype PyError =
    | NoAttribute(typeName: string, attr: string)  // `x.get(...)` on a non-dict
    | NotIterable(typeName: string)                // `for c in x` on a scalar
    | NotContainer(typeName: string)               // `"k" in x` on a scalar
    | NoItemAssignment(typeName: string)           // `x["k"] = v` on str/int/bool/None
    | NotSubscriptable(typeName: string)           // `x["k"]` on int/bool/None
    | ListIndexNotInt                              // `x["k"]` or `x["k"] = v` on a list
    | StrIndexNotInt                               // `x["k"]` on a string
    | MissingKey(key: string)                      // `d["k"]` without the key
  {
    function Text(): string {
      match this
      case NoAttribute(t, a) => "'" + t + "' object has no attribute '" + a + "'"
      case NotIterable(t) => "'" + t + "' object is not iterable"
      case NotContainer(t) => "argument of type '" + t + "' is not iterable"
      case NoItemAssignment(t) => "'" + t + "' object does not support item assignment"
      case NotSubscriptable(t) => "'" + t + "' object is not subscriptable"
      case ListIndexNotInt => "list indices must be integers or slices, not str"
      case StrIndexNotInt => "string indices must be integers, not 'str'"
      case MissingKey(k) => "'" + k + "'"
    }
  }

  /** A computation that either yields a value or raises; usable with `:-`. */
  datatype Result<+T> = Ok(value: T) | Err(error: PyError) {

    predicate IsFailure() {
      Err?
    }

    function PropagateFailure<U>(): Result<U>
      requires Err?
    {
      Err(error)
    }

    function Extract(): T
      requires Ok?
    {
      value
    }
  }
}

=== FILE: resource_requirements.dfy ===
/** `validators/resource_requirements.py`: the resource-requirements rule
    that the validator chain runs. It checks only that the entries are
    present, never their values, in a fixed order. */
module ResourceRequirements {
  import opened Py
  import opened Json
  import opened ValidatorBase
  import opened PodRules

  /** The constructor arguments. The four default quantities are kept by
      the validator but no check reads them. */
  datatype ResourceConfig = ResourceConfig(enforceLimits: bool,
                                           defaultCpuRequest: string, defaultCpuLimit: string,
                                           defaultMemoryRequest: string, defaultMemoryLimit: string)

  const DefaultResourceRequirements := ResourceConfig(true, "100m", "1", "128Mi", "512Mi")

  const ResourcesPassed := "Resource requirements validation passed"
  const ResourcesErrorPrefix := "Resource requirements validation error: "

  function Requirement(name: string, what: string): string {
    "Container " + name + " must specify " + what
  }

  /** One enforced presence check: `key` must be in the `section` entry of
      the container's resources; the message calls the entry `what`. */
  datatype Presence = Presence(section: string, key: string, what: string)

  /** The enforced checks, in the order they run. */
  const RequiredEntries := [Presence("limits", "cpu", "CPU limits"),
                            Presence("limits", "memory", "memory limits"),
                            Presence("requests", "cpu", "CPU requests"),
                            Presence("requests", "memory", "memory requests")]

  /** `resources.get(section, {})`. */
  function SectionOf(resources: map<string, Json>, section: string): Json {
    Field(resources, section, EmptyDict)
  }

  /** What the first unmet check of `entries` calls its entry, if any. */
  function FirstMissing(resources: map<string, Json>, entries: seq<Presence>): (r: Option<string>)
    ensures r == None <==> forall i :: 0 <= i < |entries| ==>
                             Member(entries[i].key, SectionOf(resources, entries[i].section))
    ensures r.Some? ==> exists i :: 0 <= i < |entries| && r.value == entries[i].what
                                    && !Member(entries[i].key, SectionOf(resources, entries[i].section))
    decreases |entries|
  {
    if |entries| == 0 then None
    else if !Member(entries[0].key, SectionOf(resources, entries[0].section)) then Some(entries[0].what)
    else
      assert forall i :: 1 <= i < |entries| ==> entries[1..][i - 1] == entries[i];
      FirstMissing(resources, entries[1..])
  }

  /** The enforced presence checks on the `limits` and `requests` of a
      dict of resources; `in` raises on a section that is not a container. */
  function PresenceChecks(name: string, resources: map<string, Json>): (r: Result<Option<string>>)
    ensures !IsContainer(SectionOf(resources, "limits")) ==> r == Err(NotContainer(TypeName(SectionOf(resources, "limits"))))
    ensures IsContainer(SectionOf(resources, "limits")) && IsContainer(SectionOf(resources, "requests")) ==>
              r == Ok(if FirstMissing(resources, RequiredEntries).Some?
                      then Some(Requirement(name, FirstMissing(resources, RequiredEntries).value))
                      else None)
  {
    var limits := SectionOf(resources, "limits");
    var requests := SectionOf(resources, "requests");
    var hasCpuLimit :- In("cpu", limits);
    if !hasCpuLimit then Ok(Some(Requirement(name, "CPU limits")))
    else if !Member("memory", limits) then Ok(Some(Requirement(name, "memory limits")))
    else
      var hasCpuRequest :- In("cpu", requests);
      if !hasCpuRequest then Ok(Some(Requirement(name, "CPU requests")))
      else if !Member("memory", requests) then Ok(Some(Requirement(name, "memory requests")))
      else Ok(None)
  }

  /** The loop body of `_validate` for one container: with enforcement on,
      a container without resources is refused, and otherwise the presence
      checks decide; with it off, only the reads of `resources` and
      `limits` can raise. */
  function CheckResources(config: ResourceConfig, container: Json): (r: Result<Option<string>>)
    ensures !container.JObj? ==> r == Err(NoAttribute(TypeName(container), "get"))
    ensures container.JObj? && config.enforceLimits && !Truthy(ResourcesOf(container.fields)) ==>
              r == Ok(Some(Requirement(NameOf(container), "resource requirements")))
    ensures container.JObj? && !config.enforceLimits && ResourcesOf(container.fields).JObj? ==> r == Ok(None)
    ensures && container.JObj? && config.enforceLimits
            && ResourcesOf(container.fields).JObj? && Truthy(ResourcesOf(container.fields))
            && IsContainer(SectionOf(ResourcesOf(container.fields).fields, "limits"))
            && IsContainer(SectionOf(ResourcesOf(container.fields).fields, "requests")) ==>
              var missing := FirstMissing(ResourcesOf(container.fields).fields, RequiredEntries);
              r == Ok(if missing.Some? then Some(Requirement(NameOf(container), missing.value)) else None)
  {
    var resources :- Get(container, "resources", EmptyDict);
    if !Truthy(resources) && config.enforceLimits then
      Ok(Some(Requirement(NameOf(container), "resource requirements")))
    else
      var limits :- Get(resources, "limits", EmptyDict);
      if !config.enforceLimits then Ok(None)
      else PresenceChecks(NameOf(container), resources.fields)
  }

  function ResourceCheck(config: ResourceConfig): Json -> Result<Option<string>> {
    c => CheckResources(config, c)
  }

  /** `ResourceRequirementsValidator._validate`. */
  function ValidateResourceRequirements(config: ResourceConfig, request: Json): (r: ValidationResult)
    ensures LacksSpec(request) ==> r == Deny(InvalidPodSpec)
    ensures r.allowed ==> r == Pass(ResourcesPassed) && SpecFields(request).Some?
    ensures SpecFields(request).Some? && ContainersOf(SpecFields(request).value).JArr? ==>
              var xs := ContainersOf(SpecFields(request).value).items;
              (r.allowed <==> forall i :: 0 <= i < |xs| ==> CheckResources(config, xs[i]) == Ok(None))
  {
    ScanPod(request, ResourceCheck(config), ResourcesPassed, ResourcesErrorPrefix)
  }

  /** The first container in declaration order that misses a requirement
      decides the denial. */
  lemma ResourceFirstFinding(config: ResourceConfig, request: Json, i: nat, message: string)
    requires SpecFields(request).Some? && ContainersOf(SpecFields(request).value).JArr?
    requires i < |ContainersOf(SpecFields(request).value).items|
    requires CheckResources(config, ContainersOf(SpecFields(request).value).items[i]) == Ok(Some(message))
    requires forall j :: 0 <= j < i ==> CheckResources(config, ContainersOf(SpecFields(request).value).items[j]) == Ok(None)
    ensures ValidateResourceRequirements(config, request) == Deny(message)
  {
    ScanPodFirstFinding(request, ResourceCheck(config), ResourcesPassed, ResourcesErrorPrefix, i, message);
  }

  /** With enforcement off, a spec whose containers and their resources are
      dicts is allowed. */
  lemma LenientResourcesAllow(config: ResourceConfig, request: Json)
    requires !config.enforceLimits
    requires SpecFields(request).Some? && ContainersOf(SpecFields(request).value).JArr?
    requires forall c :: c in ContainersOf(SpecFields(request).value).items ==>
               c.JObj? && ResourcesOf(c.fields).JObj?
    ensures ValidateResourceRequirements(config, request) == Pass(ResourcesPassed)
  {
    var xs := ContainersOf(SpecFields(request).value).items;
    forall i | 0 <= i < |xs|
      ensures CheckResources(config, xs[i]) == Ok(None)
    {
      assert xs[i] in xs;
    }
  }

  /** The `section` entries of two dicts of resources are dicts with the
      same keys. */
  predicate SameSectionKeys(resources: map<string, Json>, resources': map<string, Json>, section: string) {
    && SectionOf(resources, section).JObj? && SectionOf(resources', section).JObj?
    && SectionOf(resources, section).fields.Keys == SectionOf(resources', section).fields.Keys
  }

  /** The checks read only which keys are present: two containers with the
      same name whose resources, limits and requests are dicts with the
      same keys get the same finding, whatever the values. */
  lemma {:induction false} ResourceChecksReadOnlyKeys(config: ResourceConfig, c: Json, c': Json)
    requires c.JObj? && c'.JObj? && NameOf(c) == NameOf(c')
    requires ResourcesOf(c.fields).JObj? && ResourcesOf(c'.fields).JObj?
    requires ResourcesOf(c.fields).fields.Keys == ResourcesOf(c'.fields).fields.Keys
    requires SameSectionKeys(ResourcesOf(c.fields).fields, ResourcesOf(c'.fields).fields, "limits")
    requires SameSectionKeys(ResourcesOf(c.fields).fields, ResourcesOf(c'.fields).fields, "requests")
    ensures CheckResources(config, c) == CheckResources(config, c')
  {
    var resources := ResourcesOf(c.fields).fields;
    var resources' := ResourcesOf(c'.fields).fields;
    assert |resources| == |resources.Keys| == |resources'.Keys| == |resources'|;
    if config.enforceLimits && Truthy(ResourcesOf(c.fields)) {
      SameKeysSameFinding(resources, resources', RequiredEntries);
    }
  }

  lemma {:induction false} SameKeysSameFinding(resources: map<string, Json>, resources': map<string, Json>,
                                               entries: seq<Presence>)
    requires forall i :: 0 <= i < |entries| ==> SameSectionKeys(resources, resources', entries[i].section)
    ensures FirstMissing(resources, entries) == FirstMissing(resources', entries)
    decreases |entries|
  {
    if |entries| > 0 {
      assert forall i :: 1 <= i < |entries| ==> entries[1..][i - 1] == entries[i];
      SameKeysSameFinding(resources, resources', entries[1..]);
    }
  }
}

=== FILE: security.dfy ===
/** The rules of `validators/security.py`: the security-context rule of
    `SecurityContextValidator`, and the older image-policy and
    resource-requirements rules that the same file defines with their own
    `validate` over a typed request. */
module Security {
  import opened Py
  import opened Json
  import opened Strings
  import opened Admission
  import opened ValidatorBase
  import opened PodRules

  // ---------------------------------------------------------------------
  // SecurityContextValidator
  // ---------------------------------------------------------------------

  /** The constructor arguments; every check is enforced by default. */
  datatype SecurityConfig = SecurityConfig(enforcePrivileged: bool, enforceNonRoot: bool,
                                           enforceReadonlyRoot: bool, enforceHostNetwork: bool)

  const DefaultSecurity := SecurityConfig(true, true, true, true)

  const HostNetworkDenied := "Host network access is not allowed"
  const PrivilegedDenied := "Privileged containers are not allowed"
  const RootDenied := "Running as root is not allowed"
  const ReadOnlyRootRequired := "Root filesystem must be read-only"
  const SecurityPassed := "Security context validation passed"
  const SecurityErrorPrefix := "Security context validation error: "

  /** `container.get("securityContext", {})` for a dict container. */
  function ContextOf(container: map<string, Json>): Json {
    Field(container, "securityContext", EmptyDict)
  }

  /** `spec.get("hostNetwork", False)`. */
  function HostNetworkOf(spec: map<string, Json>): Json {
    Field(spec, "hostNetwork", JBool(false))
  }

  /** The context names user 0: `runAsUser` is present and equal to `0`
      (or `False`, which Python also compares equal to `0`). */
  predicate RunsAsRoot(context: map<string, Json>) {
    "runAsUser" in context && EqualsZero(context["runAsUser"])
  }

  /** The message a container whose security context is a dict earns: the
      first enforced requirement it breaks, taken in the order privileged,
      root user, read-only root filesystem. */
  function ContainerVerdict(config: SecurityConfig, context: map<string, Json>): Option<string> {
    if config.enforcePrivileged && Truthy(Field(context, "privileged", JBool(false))) then Some(PrivilegedDenied)
    else if config.enforceNonRoot && RunsAsRoot(context) then Some(RootDenied)
    else if config.enforceReadonlyRoot && !Truthy(Field(context, "readOnlyRootFilesystem", JBool(false)))
    then Some(ReadOnlyRootRequired)
    else None
  }

  /** The body of the container loop of `_validate` for one container. */
  function CheckContainer(config: SecurityConfig, container: Json): (r: Result<Option<string>>)
    ensures !container.JObj? ==> r == Err(NoAttribute(TypeName(container), "get"))
    ensures container.JObj? && ContextOf(container.fields).JObj? ==>
              r == Ok(ContainerVerdict(config, ContextOf(container.fields).fields))
    ensures container.JObj? && !ContextOf(container.fields).JObj?
            && (config.enforcePrivileged || config.enforceNonRoot || config.enforceReadonlyRoot) ==>
              r == Err(NoAttribute(TypeName(ContextOf(container.fields)), "get"))
    ensures container.JObj? && "securityContext" !in container.fields ==>
              r == Ok(if config.enforceReadonlyRoot then Some(ReadOnlyRootRequired) else None)
    ensures r == Ok(Some(RootDenied)) ==>
              container.JObj? && ContextOf(container.fields).JObj? && RunsAsRoot(ContextOf(container.fields).fields)
  {
    var context :- Get(container, "securityContext", EmptyDict);
    var privileged :- if config.enforcePrivileged then Get(context, "privileged", JBool(false)) else Ok(JBool(false));
    if Truthy(privileged) then Ok(Some(PrivilegedDenied))
    else
      var user :- if config.enforceNonRoot then Get(context, "runAsUser", JNull) else Ok(JNull);
      if user != JNull && EqualsZero(user) then Ok(Some(RootDenied))
      else
        var readOnly :- if config.enforceReadonlyRoot then Get(context, "readOnlyRootFilesystem", JBool(false))
                        else Ok(JBool(true));
        if !Truthy(readOnly) then Ok(Some(ReadOnlyRootRequired)) else Ok(None)
  }

  function ContainerCheck(config: SecurityConfig): Json -> Result<Option<string>> {
    c => CheckContainer(config, c)
  }

  /** `_validate` up to its `except`: the spec preamble, the host-network
      check, then the containers in declaration order. */
  function SecurityRule(config: SecurityConfig, request: Json): Result<ValidationResult> {
    var view :- ReadPod(request);
    match view
    case NoSpec => Ok(Deny(InvalidPodSpec))
    case PodSpec(spec, containers) =>
      if config.enforceHostNetwork && Truthy(HostNetworkOf(spec)) then Ok(Deny(HostNetworkDenied))
      else
        var violation :- ScanContainers(containers, ContainerCheck(config));
        Ok(if violation.Some? then Deny(violation.value) else Pass(SecurityPassed))
  }

  /** `SecurityContextValidator._validate`: an exception becomes a denial
      whose message carries its text. */
  function ValidateSecurity(config: SecurityConfig, request: Json): (r: ValidationResult)
    ensures LacksSpec(request) ==> r == Deny(InvalidPodSpec)
    ensures (SpecFields(request).Some? && config.enforceHostNetwork
             && Truthy(HostNetworkOf(SpecFields(request).value))) ==> r == Deny(HostNetworkDenied)
    ensures r.allowed ==> && r == Pass(SecurityPassed)
                          && SpecFields(request).Some?
                          && !(config.enforceHostNetwork && Truthy(HostNetworkOf(SpecFields(request).value)))
    ensures SpecFields(request).Some? && !(config.enforceHostNetwork && Truthy(HostNetworkOf(SpecFields(request).value)))
            && ContainersOf(SpecFields(request).value).JArr? ==>
              var xs := ContainersOf(SpecFields(request).value).items;
              (r.allowed <==> forall i :: 0 <= i < |xs| ==> CheckContainer(config, xs[i]) == Ok(None))
    ensures !r.allowed ==> r.message.Some?
    ensures r.warnings == None
  {
    match SecurityRule(config, request)
    case Ok(result) => result
    case Err(e) => Deny(SecurityErrorPrefix + e.Text())
  }

  /** Past the host-network check, the first container in declaration order
      that breaks a requirement decides the message. */
  lemma SecurityFirstViolation(config: SecurityConfig, request: Json, i: nat, message: string)
    requires SpecFields(request).Some?
    requires !(config.enforceHostNetwork && Truthy(HostNetworkOf(SpecFields(request).value)))
    requires ContainersOf(SpecFields(request).value).JArr?
    requires i < |ContainersOf(SpecFields(request).value).items|
    requires CheckContainer(config, ContainersOf(SpecFields(request).value).items[i]) == Ok(Some(message))
    requires forall j :: 0 <= j < i ==> CheckContainer(config, ContainersOf(SpecFields(request).value).items[j]) == Ok(None)
    ensures ValidateSecurity(config, request) == Deny(message)
  {
    FirstViolationAt(ContainersOf(SpecFields(request).value).items, ContainerCheck(config), i);
  }

  /** With every check switched off, a spec whose containers are dicts is
      allowed. */
  lemma SecurityAllFlagsOff(request: Json)
    requires SpecFields(request).Some?
    requires ContainersOf(SpecFields(request).value).JArr?
    requires forall c :: c in ContainersOf(SpecFields(request).value).items ==> c.JObj?
    ensures ValidateSecurity(SecurityConfig(false, false, false, false), request) == Pass(SecurityPassed)
  {
    var xs := ContainersOf(SpecFields(request).value).items;
    var off := SecurityConfig(false, false, false, false);
    forall i | 0 <= i < |xs|
      ensures ContainerCheck(off)(xs[i]) == Ok(None)
    {
      assert xs[i] in xs;
    }
  }

  // ---------------------------------------------------------------------
  // The typed `validate` of the older validators in this file
  // ---------------------------------------------------------------------

  /** The finding of a container, prefixed with its name in quotes. */
  function ContainerMessage(container: Json, error: string): string {
    "Container '" + NameOf(container) + "': " + error
  }

  /** The intended logic of the `validate` overrides: allow a kind other than
      Pod or Deployment, otherwise find the pod spec (`spec`, or
      `spec.template.spec` for a Deployment), read its `containers` and deny
      with the first container's finding; an exception becomes a denial
      carrying its text. */
  function LegacyPodRule(request: Request, check: Json -> Result<Option<string>>): (r: ValidationResult)
    ensures !SupportedKind(request.kind) ==> r == Allowed
    ensures r.allowed ==> r == Allowed
    ensures SupportedKind(request.kind) && LocatePodSpec(request.kind, request.obj).Ok?
            && LocatePodSpec(request.kind, request.obj).value.JObj?
            && ContainersOf(LocatePodSpec(request.kind, request.obj).value.fields).JArr? ==>
              var xs := ContainersOf(LocatePodSpec(request.kind, request.obj).value.fields).items;
              (r.allowed <==> forall i :: 0 <= i < |xs| ==> check(xs[i]) == Ok(None))
  {
    if !SupportedKind(request.kind) then Allowed
    else
      var outcome: Result<Option<string>> :=
        var podSpec :- LocatePodSpec(request.kind, request.obj);
        var containers :- Get(podSpec, "containers", JArr([]));
        ScanContainers(containers, check);
      match outcome
      case Ok(None) => Allowed
      case Ok(Some(message)) => Deny(message)
      case Err(e) => Deny(e.Text())
  }

  /** The first container in declaration order with a finding decides. */
  lemma LegacyFirstFinding(request: Request, check: Json -> Result<Option<string>>, spec: map<string, Json>,
                           i: nat, message: string)
    requires SupportedKind(request.kind) && LocatePodSpec(request.kind, request.obj) == Ok(JObj(spec))
    requires ContainersOf(spec).JArr? && i < |ContainersOf(spec).items|
    requires check(ContainersOf(spec).items[i]) == Ok(Some(message))
    requires forall j :: 0 <= j < i ==> check(ContainersOf(spec).items[j]) == Ok(None)
    ensures LegacyPodRule(request, check) == Deny(message)
  {
    FirstViolationAt(ContainersOf(spec).items, check, i);
  }

  // --- ImagePolicyValidator (older version) ---

  /** `allowed_registries or []` and `deny_latest_tag`, off by default. */
  datatype LegacyImageConfig = LegacyImageConfig(allowedRegistries: seq<string>, denyLatestTag: bool)

  const DefaultLegacyImagePolicy := LegacyImageConfig([], false)

  const LatestNotAllowed := "Latest tag is not allowed"

  function RegistryNotAllowed(registry: string): string {
    "Image registry '" + registry + "' is not allowed"
  }

  /** The registry check passes: the allow-list is empty, or it holds the
      text before the first `/`. */
  predicate LegacyRegistryAccepted(config: LegacyImageConfig, image: string) {
    |config.allowedRegistries| == 0 || Before(image, '/') in config.allowedRegistries
  }

  /** `validate_image` for a string image. */
  function ValidateImage(config: LegacyImageConfig, image: string): (r: Option<string>)
    ensures r == None <==> LegacyRegistryAccepted(config, image) && !(config.denyLatestTag && Contains(image, ":latest"))
    ensures !LegacyRegistryAccepted(config, image) ==> r == Some(RegistryNotAllowed(Before(image, '/')))
    ensures r == Some(LatestNotAllowed) ==> config.denyLatestTag && Contains(image, ":latest")
  {
    if |config.allowedRegistries| > 0 && Before(image, '/') !in config.allowedRegistries then
      Some(RegistryNotAllowed(Before(image, '/')))
    else if config.denyLatestTag && Contains(image, ":latest") then Some(LatestNotAllowed)
    else None
  }

  /** An image without any `:` is never rejected for its tag. */
  lemma {:induction false} LegacyUntaggedImageKeepsTag(config: LegacyImageConfig, image: string)
    requires ':' !in image
    ensures ValidateImage(config, image) != Some(LatestNotAllowed)
  {
    MissingCharNoMatch(image, ":latest", ':');
  }

  function LatestCheck(config: LegacyImageConfig, image: Json): Result<Option<string>> {
    if config.denyLatestTag then
      var hasLatest :- In(":latest", image);
      Ok(if hasLatest then Some(LatestNotAllowed) else None)
    else Ok(None)
  }

  /** `validate_image` applied to whatever `container.get("image", "")`
      returned: a value that is not a string raises at `split` or `in`. */
  function ImageCheck(config: LegacyImageConfig, image: Json): (r: Result<Option<string>>)
    ensures image.JStr? ==> r == Ok(ValidateImage(config, image.s))
    ensures |config.allowedRegistries| > 0 && !image.JStr? ==> r == Err(NoAttribute(TypeName(image), "split"))
  {
    if |config.allowedRegistries| > 0 then
      var registry :- SplitFirst(image, '/');
      if registry !in config.allowedRegistries then Ok(Some(RegistryNotAllowed(registry)))
      else LatestCheck(config, image)
    else LatestCheck(config, image)
  }

  /** The loop body of the older `validate` for one container: its image's
      finding, prefixed with the container's name. */
  function LegacyImageContainer(config: LegacyImageConfig, container: Json): (r: Result<Option<string>>)
    ensures !container.JObj? ==> r == Err(NoAttribute(TypeName(container), "get"))
    ensures container.JObj? && Field(container.fields, "image", JStr("")).JStr? ==>
              var error := ValidateImage(config, Field(container.fields, "image", JStr("")).s);
              r == Ok(if error.Some? then Some(ContainerMessage(container, error.value)) else None)
  {
    var image :- Get(container, "image", JStr(""));
    var error :- ImageCheck(config, image);
    Ok(if error.Some? then Some(ContainerMessage(container, error.value)) else None)
  }

  /** The older `ImagePolicyValidator.validate`. */
  function LegacyValidateImages(config: LegacyImageConfig, request: Request): (r: ValidationResult)
    ensures !SupportedKind(request.kind) ==> r == Allowed
    ensures r.allowed ==> r == Allowed
  {
    LegacyPodRule(request, c => LegacyImageContainer(config, c))
  }

  /** With its defaults (no allow-list, latest tag allowed) the older rule
      accepts every container whose image is a string. */
  lemma LegacyImagesDefaultAllow(request: Request, spec: map<string, Json>)
    requires SupportedKind(request.kind) && LocatePodSpec(request.kind, request.obj) == Ok(JObj(spec))
    requires ContainersOf(spec).JArr?
    requires forall c :: c in ContainersOf(spec).items ==> c.JObj? && Field(c.fields, "image", JStr("")).JStr?
    ensures LegacyValidateImages(DefaultLegacyImagePolicy, request) == Allowed
  {
    var xs := ContainersOf(spec).items;
    assert forall i :: 0 <= i < |xs| ==> LegacyImageContainer(DefaultLegacyImagePolicy, xs[i]) == Ok(None) by {
      forall i | 0 <= i < |xs|
        ensures LegacyImageContainer(DefaultLegacyImagePolicy, xs[i]) == Ok(None)
      {
        assert xs[i] in xs;
      }
    }
  }

  // --- ResourceRequirementsValidator (older version) ---

  /** The constructor arguments: limits are not enforced and no bound is
      set by default. */
  datatype LegacyResourceConfig = LegacyResourceConfig(enforceLimits: bool,
                                                       minMemory: Option<string>, maxMemory: Option<string>,
                                                       minCpu: Option<string>, maxCpu: Option<string>)

  const DefaultLegacyResources := LegacyResourceConfig(false, None, None, None, None)

  const LimitsRequired := "Resource limits are required"

  /** An `Optional[str]` bound is truthy: set and non-empty. */
  predicate IsSet(bound: Option<string>) {
    bound.Some? && |bound.value| > 0
  }

  /** `str(bound)`. */
  function BoundText(bound: Option<string>): string {
    if bound.Some? then bound.value else "None"
  }

  /** `_compare_resource`: the source leaves the quantity comparison
      unimplemented and returns `True`, so every pair of quantities is
      accepted; that constant answer is the whole of its behaviour. */
  function CompareResource(resourceType: string, value: Json, bound: string, operator: string): (r: bool)
    ensures r
  {
    true
  }

  /** One bound check: when the bound is set and `side.get(key)` is truthy,
      compare the two and report `message` followed by the bound on
      failure. */
  function BoundCheck(bound: Option<string>, side: Json, key: string, operator: string, message: string)
    : (r: Result<Option<string>>)
    ensures r.Ok? ==> r.value == None
    ensures r.Err? <==> IsSet(bound) && !side.JObj?
  {
    if !IsSet(bound) then Ok(None)
    else
      var value :- Get(side, key, JNull);
      if Truthy(value) && !CompareResource(key, value, BoundText(bound), operator) then
        Ok(Some(message + BoundText(bound)))
      else Ok(None)
  }

  /** `validate_resources`: the only finding it can produce is that limits
      are required; the bound checks still read `limits` and `requests`,
      and raise when one of them is not a dict. */
  function ValidateResources(config: LegacyResourceConfig, container: Json): (r: Result<Option<string>>)
    ensures r.Ok? && r.value.Some? ==> r.value.value == LimitsRequired
    ensures r == Ok(Some(LimitsRequired)) <==>
              && container.JObj? && ResourcesOf(container.fields).JObj? && config.enforceLimits
              && !Truthy(Field(ResourcesOf(container.fields).fields, "limits", JNull))
    ensures container.JObj? && ResourcesOf(container.fields).JObj?
            && Field(ResourcesOf(container.fields).fields, "limits", EmptyDict).JObj?
            && Field(ResourcesOf(container.fields).fields, "requests", EmptyDict).JObj?
            && !(config.enforceLimits && !Truthy(Field(ResourcesOf(container.fields).fields, "limits", JNull))) ==>
              r == Ok(None)
  {
    var resources :- Get(container, "resources", EmptyDict);
    var limitsGiven :- if config.enforceLimits then Get(resources, "limits", JNull) else Ok(JBool(true));
    if !Truthy(limitsGiven) then Ok(Some(LimitsRequired))
    else
      var limits :- Get(resources, "limits", EmptyDict);
      var requests := Field(resources.fields, "requests", EmptyDict);
      var minMemory :- BoundCheck(config.minMemory, requests, "memory", ">=", "Memory request must be >= ");
      if minMemory.Some? then Ok(minMemory)
      else
        var maxMemory :- BoundCheck(config.maxMemory, limits, "memory", "<=", "Memory limit must be <= ");
        if maxMemory.Some? then Ok(maxMemory)
        else
          var minCpu :- BoundCheck(config.minCpu, requests, "cpu", ">=", "CPU request must be >= ");
          if minCpu.Some? then Ok(minCpu)
          else
            var maxCpu :- BoundCheck(config.maxCpu, limits, "cpu", "<=", "CPU limit must be <= ");
            Ok(maxCpu)
  }

  /** The loop body of the older `validate` for one container: the only
      finding is the missing limits, prefixed with the container's name. */
  function LegacyResourceContainer(config: LegacyResourceConfig, container: Json): (r: Result<Option<string>>)
    ensures r.Ok? && r.value.Some? ==> r.value.value == ContainerMessage(container, LimitsRequired)
    ensures r == Ok(None) <==> ValidateResources(config, container) == Ok(None)
  {
    var error :- ValidateResources(config, container);
    Ok(if error.Some? then Some(ContainerMessage(container, error.value)) else None)
  }

  /** The older `ResourceRequirementsValidator.validate`. */
  function LegacyValidateResources(config: LegacyResourceConfig, request: Request): (r: ValidationResult)
    ensures !SupportedKind(request.kind) ==> r == Allowed
    ensures r.allowed ==> r == Allowed
  {
    LegacyPodRule(request, c => LegacyResourceContainer(config, c))
  }

  /** With its defaults (nothing enforced, no bound) the older rule accepts
      every container whose `resources`, `limits` and `requests` are dicts
      or absent. */
  lemma LegacyResourcesDefaultAllow(request: Request, spec: map<string, Json>)
    requires SupportedKind(request.kind) && LocatePodSpec(request.kind, request.obj) == Ok(JObj(spec))
    requires ContainersOf(spec).JArr?
    requires forall c :: c in ContainersOf(spec).items ==>
               && c.JObj? && ResourcesOf(c.fields).JObj?
               && Field(ResourcesOf(c.fields).fields, "limits", EmptyDict).JObj?
               && Field(ResourcesOf(c.fields).fields, "requests", EmptyDict).JObj?
    ensures LegacyValidateResources(DefaultLegacyResources, request) == Allowed
  {
    var xs := ContainersOf(spec).items;
    assert forall i :: 0 <= i < |xs| ==> LegacyResourceContainer(DefaultLegacyResources, xs[i]) == Ok(None) by {
      forall i | 0 <= i < |xs|
        ensures LegacyResourceContainer(DefaultLegacyResources, xs[i]) == Ok(None)
      {
        assert xs[i] in xs;
      }
    }
  }
}

=== FILE: strings.dfy ===
/** The few `str` operations the webhook's rules use: substring search
    (`needle in hay`), `s.split(sep)[0]`, `sep.join(xs)` and `str(n)`. */
module Strings {

  /** `needle` occurs in `hay` starting at index `i`. */
  ghost predicate OccursAt(hay: string, needle: string, i: int) {
    0 <= i && i + |needle| <= |hay| && hay[i..i + |needle|] == needle
  }

  /** Python's `needle in hay` for two strings. */
  predicate Contains(hay: string, needle: string)
    decreases |hay|
  {
    if |needle| > |hay| then false
    else if hay[..|needle|] == needle then true
    else |hay| > 0 && Contains(hay[1..], needle)
  }

  /** The substring test agrees with the positional definition of an
      occurrence, in both directions. */
  lemma {:induction false} ContainsIffOccurs(hay: string, needle: string)
    ensures Contains(hay, needle) <==> exists i :: OccursAt(hay, needle, i)
    decreases |hay|
  {
    if |needle| > |hay| {
      assert forall i :: !OccursAt(hay, needle, i);
    } else if hay[..|needle|] == needle {
      assert OccursAt(hay, needle, 0);
    } else {
      assert |hay| > 0;
      ContainsIffOccurs(hay[1..], needle);
      if Contains(hay, needle) {
        var i :| OccursAt(hay[1..], needle, i);
        assert hay[1..][i..i + |needle|] == hay[i + 1..i + 1 + |needle|];
        assert OccursAt(hay, needle, i + 1);
      } else {
        forall i | OccursAt(hay, needle, i)
          ensures false
        {
          if i > 0 {
            assert hay[1..][i - 1..i - 1 + |needle|] == hay[i..i + |needle|];
            assert OccursAt(hay[1..], needle, i - 1);
          }
        }
      }
    }
  }

  /** A one-character needle occurs exactly when the character is in `hay`. */
  lemma ContainsChar(hay: string, c: char)
    ensures Contains(hay, [c]) <==> c in hay
  {
    ContainsIffOccurs(hay, [c]);
    if c in hay {
      var i :| 0 <= i < |hay| && hay[i] == c;
      assert hay[i..i + 1] == [c];
      assert OccursAt(hay, [c], i);
    }
    if Contains(hay, [c]) {
      var i :| OccursAt(hay, [c], i);
      assert hay[i] == hay[i..i + 1][0];
    }
  }

  /** A string never contains a needle holding a character it lacks. */
  lemma {:induction false} MissingCharNoMatch(hay: string, needle: string, c: char)
    requires c in needle && c !in hay
    ensures !Contains(hay, needle)
    decreases |hay|
  {
    if |needle| <= |hay| {
      var k :| 0 <= k < |needle| && needle[k] == c;
      assert hay[..|needle|][k] != c;
      if |hay| > 0 {
        assert forall j :: 0 <= j < |hay| - 1 ==> hay[1..][j] == hay[j + 1];
        MissingCharNoMatch(hay[1..], needle, c);
      }
    }
  }

  /** `s.split(sep)[0]`: the text before the first `sep`, or all of `s`
      when `sep` does not occur. */
  function Before(s: string, sep: char): (r: string)
    ensures |r| <= |s| && r == s[..|r|]
    ensures sep !in r
    ensures |r| < |s| ==> s[|r|] == sep
    ensures sep !in s ==> r == s
  {
    if |s| == 0 || s[0] == sep then ""
    else [s[0]] + Before(s[1..], sep)
  }

  /** `sep.join(xs)`. */
  function Join(sep: string, xs: seq<string>): string {
    if |xs| == 0 then ""
    else if |xs| == 1 then xs[0]
    else xs[0] + sep + Join(sep, xs[1..])
  }

  function DigitChar(d: nat): char
    requires d < 10
  {
    "0123456789"[d]
  }

  /** `str(n)` for a natural number: its decimal digits. */
  function NatToDecimal(n: nat): string
    decreases n
  {
    if n < 10 then [DigitChar(n)]
    else NatToDecimal(n / 10) + [DigitChar(n % 10)]
  }

  /** `str(i)` for an integer. */
  function IntToDecimal(i: int): string {
    if i < 0 then "-" + NatToDecimal(-i) else NatToDecimal(i)
  }
}

=== FILE: validator_base.dfy ===
/** The validator base class and the validator chain: the envelope checks
    every validator runs before its own rule, and the ordered, short-circuiting
    fold that runs a list of validators and gathers their warnings. */
module ValidatorBase {
  import opened Py
  import opened Json

  /** `allowed`, an optional message, and optional non-fatal warnings. */
  datatype ValidationResult = ValidationResult(allowed: bool, message: Option<string>, warnings: Option<seq<string>>)

  function Deny(message: string): ValidationResult {
    ValidationResult(false, Some(message), None)
  }

  function Pass(message: string): ValidationResult {
    ValidationResult(true, Some(message), None)
  }

  /** `ValidationResult(allowed=True)`. */
  const Allowed := ValidationResult(true, None, None)

  const InvalidFormat := "Invalid admission request format"
  const MissingObject := "Missing request object"
  const NotSupported := "Validator does not support this request type"

  /** An envelope that passes the format checks: a dict whose non-empty
      `request` holds `"object"` (checked with Python's `in`). */
  predicate WellFormed(envelope: Json) {
    && envelope.JObj?
    && "request" in envelope.fields
    && Truthy(envelope.fields["request"])
    && In("object", envelope.fields["request"]) == Ok(true)
  }

  /** `BaseValidator.validate`: reject an empty envelope or one without
      `request`, then an empty inner request or one without `object`, then
      answer "does not support" when `supported` is false, and only then run
      the validator's own `_validate` on the inner request. An exception on
      the way is reported as a denial carrying its text. */
  function BaseValidate(envelope: Json, supported: bool, validate: Json -> ValidationResult): (r: ValidationResult)
    ensures !Truthy(envelope) ==> r == Deny(InvalidFormat)
    ensures envelope.JObj? && "request" !in envelope.fields ==> r == Deny(InvalidFormat)
    ensures envelope.JObj? && "request" in envelope.fields && !Truthy(envelope.fields["request"]) ==>
              r == Deny(MissingObject)
    ensures (envelope.JObj? && "request" in envelope.fields && envelope.fields["request"].JObj?
             && "object" !in envelope.fields["request"].fields) ==> r == Deny(MissingObject)
    ensures WellFormed(envelope) && !supported ==> r == Pass(NotSupported)
    ensures WellFormed(envelope) && supported ==> r == validate(envelope.fields["request"])
    ensures r.allowed ==> WellFormed(envelope) && (supported ==> validate(envelope.fields["request"]).allowed)
  {
    if !Truthy(envelope) then Deny(InvalidFormat)
    else match In("request", envelope)
      case Err(e) => Deny(e.Text())
      case Ok(false) => Deny(InvalidFormat)
      case Ok(true) =>
        match Get(envelope, "request", EmptyDict)
        case Err(e) => Deny(e.Text())
        case Ok(request) =>
          if !Truthy(request) then Deny(MissingObject)
          else match In("object", request)
            case Err(e) => Deny(e.Text())
            case Ok(false) => Deny(MissingObject)
            case Ok(true) => if !supported then Pass(NotSupported) else validate(request)
  }

  /** The warnings a result carries (`if result.warnings:` treats `None` and
      `[]` alike). */
  function WarningsOf(r: ValidationResult): seq<string> {
    if r.warnings.Some? then r.warnings.value else []
  }

  /** `warnings if warnings else None`. */
  function NoneIfEmpty(ws: seq<string>): Option<seq<string>> {
    if |ws| > 0 then Some(ws) else None
  }

  /** Validator `v` stops the chain: it supports the request and disallows it. */
  predicate Denies<V>(supports: (V, Json) -> bool, validate: (V, Json) -> ValidationResult, v: V, request: Json) {
    supports(v, request) && !validate(v, request).allowed
  }

  /** The loop of `ValidatorChain.validate`, with the warnings gathered so far:
      skip a validator that does not support the request, return the first
      disallowing result as it is, and otherwise extend the warnings. */
  function RunChain<V>(validators: seq<V>, supports: (V, Json) -> bool, validate: (V, Json) -> ValidationResult,
                       request: Json, warnings: seq<string>): (r: ValidationResult)
    ensures r.allowed <==> forall i :: 0 <= i < |validators| ==> !Denies(supports, validate, validators[i], request)
    ensures r.allowed ==> r.message == None
    ensures !r.allowed ==> exists i :: 0 <= i < |validators| && supports(validators[i], request)
                                        && r == validate(validators[i], request)
    decreases |validators|
  {
    assert forall i :: 1 <= i < |validators| ==> validators[1..][i - 1] == validators[i];
    if |validators| == 0 then ValidationResult(true, None, NoneIfEmpty(warnings))
    else if !supports(validators[0], request) then RunChain(validators[1..], supports, validate, request, warnings)
    else
      var result := validate(validators[0], request);
      if !result.allowed then result
      else RunChain(validators[1..], supports, validate, request, warnings + WarningsOf(result))
  }

  /** `ValidatorChain(validators).validate(request)`. */
  function ValidatorChain<V>(validators: seq<V>, supports: (V, Json) -> bool, validate: (V, Json) -> ValidationResult,
                             request: Json): ValidationResult
  {
    RunChain(validators, supports, validate, request, [])
  }

  /** The warnings of every supporting validator, in list order. */
  function CollectWarnings<V>(validators: seq<V>, supports: (V, Json) -> bool, validate: (V, Json) -> ValidationResult,
                              request: Json): seq<string>
    decreases |validators|
  {
    if |validators| == 0 then []
    else (if supports(validators[0], request) then WarningsOf(validate(validators[0], request)) else [])
         + CollectWarnings(validators[1..], supports, validate, request)
  }

  /** The chain returns the result of the first validator that disallows the
      request, unchanged. */
  lemma {:induction false} ChainReturnsFirstDenial<V>(validators: seq<V>, supports: (V, Json) -> bool,
                                                      validate: (V, Json) -> ValidationResult, request: Json, i: nat)
    requires i < |validators| && Denies(supports, validate, validators[i], request)
    requires forall j :: 0 <= j < i ==> !Denies(supports, validate, validators[j], request)
    ensures ValidatorChain(validators, supports, validate, request) == validate(validators[i], request)
  {
    FirstDenialFrom(validators, supports, validate, request, [], i);
  }

  lemma {:induction false} FirstDenialFrom<V>(validators: seq<V>, supports: (V, Json) -> bool,
                                              validate: (V, Json) -> ValidationResult, request: Json,
                                              warnings: seq<string>, i: nat)
    requires i < |validators| && Denies(supports, validate, validators[i], request)
    requires forall j :: 0 <= j < i ==> !Denies(supports, validate, validators[j], request)
    ensures RunChain(validators, supports, validate, request, warnings) == validate(validators[i], request)
    decreases i
  {
    if i > 0 {
      assert !Denies(supports, validate, validators[0], request);
      var next := if supports(validators[0], request) then warnings + WarningsOf(validate(validators[0], request))
                  else warnings;
      assert forall j :: 0 <= j < i - 1 ==> validators[1..][j] == validators[j + 1];
      FirstDenialFrom(validators[1..], supports, validate, request, next, i - 1);
    }
  }

  /** When no validator disallows, the chain allows with the ordered
      concatenation of the supporting validators' warnings, or `None` when
      there are none; an empty chain allows with no warnings. */
  lemma {:induction false} ChainGathersWarnings<V>(validators: seq<V>, supports: (V, Json) -> bool,
                                                   validate: (V, Json) -> ValidationResult, request: Json)
    requires forall i :: 0 <= i < |validators| ==> !Denies(supports, validate, validators[i], request)
    ensures ValidatorChain(validators, supports, validate, request)
            == ValidationResult(true, None, NoneIfEmpty(CollectWarnings(validators, supports, validate, request)))
  {
    GathersFrom(validators, supports, validate, request, []);
    assert [] + CollectWarnings(validators, supports, validate, request)
        == CollectWarnings(validators, supports, validate, request);
  }

  lemma {:induction false} GathersFrom<V>(validators: seq<V>, supports: (V, Json) -> bool,
                                          validate: (V, Json) -> ValidationResult, request: Json, warnings: seq<string>)
    requires forall i :: 0 <= i < |validators| ==> !Denies(supports, validate, validators[i], request)
    ensures RunChain(validators, supports, validate, request, warnings)
            == ValidationResult(true, None, NoneIfEmpty(warnings + CollectWarnings(validators, supports, validate, request)))
    decreases |validators|
  {
    if |validators| == 0 {
      assert warnings + [] == warnings;
    } else {
      var head := if supports(validators[0], request) then WarningsOf(validate(validators[0], request)) else [];
      assert !Denies(supports, validate, validators[0], request);
      assert forall i :: 0 <= i < |validators| - 1 ==> validators[1..][i] == validators[i + 1];
      if !supports(validators[0], request) {
        assert warnings + head == warnings;
      }
      assert RunChain(validators, supports, validate, request, warnings)
          == RunChain(validators[1..], supports, validate, request, warnings + head);
      GathersFrom(validators[1..], supports, validate, request, warnings + head);
      assert warnings + head + CollectWarnings(validators[1..], supports, validate, request)
          == warnings + CollectWarnings(validators, supports, validate, request);
    }
  }

  /** The chain never consults `validate` for a validator that does not
      support the request: two `validate` functions that agree on the
      supporting validators give the same chain result. */
  lemma {:induction false} ChainSkipsUnsupported<V>(validators: seq<V>, supports: (V, Json) -> bool,
                                                    validate: (V, Json) -> ValidationResult,
                                                    validate': (V, Json) -> ValidationResult, request: Json,
                                                    warnings: seq<string>)
    requires forall i :: 0 <= i < |validators| && supports(validators[i], request) ==>
               validate(validators[i], request) == validate'(validators[i], request)
    ensures RunChain(validators, supports, validate, request, warnings)
            == RunChain(validators, supports, validate', request, warnings)
    decreases |validators|
  {
    if |validators| > 0 {
      var next := if supports(validators[0], request) then warnings + WarningsOf(validate(validators[0], request))
                  else warnings;
      assert forall i :: 0 <= i < |validators| - 1 ==> validators[1..][i] == validators[i + 1];
      ChainSkipsUnsupported(validators[1..], supports, validate, validate', request, next);
    }
  }

  /** Once a validator disallows, no later validator runs: appending
      validators after it does not change the chain's result. */
  lemma {:induction false} ChainIgnoresLaterValidators<V>(validators: seq<V>, later: seq<V>,
                                                          supports: (V, Json) -> bool,
                                                          validate: (V, Json) -> ValidationResult, request: Json,
                                                          warnings: seq<string>)
    requires exists i :: 0 <= i < |validators| && Denies(supports, validate, validators[i], request)
    ensures RunChain(validators + later, supports, validate, request, warnings)
            == RunChain(validators, supports, validate, request, warnings)
    decreases |validators|
  {
    assert (validators + later)[0] == validators[0];
    if !Denies(supports, validate, validators[0], request) {
      var next := if supports(validators[0], request) then warnings + WarningsOf(validate(validators[0], request))
                  else warnings;
      var i :| 0 <= i < |validators| && Denies(supports, validate, validators[i], request);
      assert validators[1..][i - 1] == validators[i];
      assert (validators + later)[1..] == validators[1..] + later;
      ChainIgnoresLaterValidators(validators[1..], later, supports, validate, request, next);
    }
  }
}

=== FILE: validators.dfy ===
/** The three validators the webhook chains, each behind the base-class
    envelope checks, and the chain over them. */
module Validators {
  import opened Py
  import opened Json
  import opened Admission
  import opened ValidatorBase
  import Security
  import ImagePolicy
  import ResourceRequirements

  /** A configured validator. */
  datatype Validator =
    | SecurityContextValidator(security: Security.SecurityConfig)
    | ImagePolicyValidator(images: ImagePolicy.ImagePolicyConfig)
    | ResourceRequirementsValidator(resources: ResourceRequirements.ResourceConfig)

  /** `supports`: all three validators answer alike, by the kind of the
      envelope. */
  function Supports(v: Validator, envelope: Json): (r: bool)
    ensures r <==> Lookup(envelope, ["request", "kind", "kind"]) in {Some(JStr(Pod)), Some(JStr(Deployment))}
  {
    EnvelopeSupported(envelope)
  }

  /** `_validate` of the validator, on the inner request. */
  function Rule(v: Validator, request: Json): (r: ValidationResult)
    ensures r.warnings == None
  {
    match v
    case SecurityContextValidator(config) => Security.ValidateSecurity(config, request)
    case ImagePolicyValidator(config) => ImagePolicy.ValidateImages(config, request)
    case ResourceRequirementsValidator(config) => ResourceRequirements.ValidateResourceRequirements(config, request)
  }

  /** `validator.validate(envelope)`: the base-class checks, then `_validate`
      on the inner request when the envelope is of a supported kind. */
  function Validate(v: Validator, envelope: Json): (r: ValidationResult)
    ensures r.warnings == None
    ensures r.allowed && r.message != Some(NotSupported) ==> WellFormed(envelope) && Supports(v, envelope)
    ensures WellFormed(envelope) && Supports(v, envelope) ==> r == Rule(v, envelope.fields["request"])
  {
    BaseValidate(envelope, Supports(v, envelope), request => Rule(v, request))
  }

  /** None of the validators reports warnings, so none are collected. */
  lemma {:induction false} NothingCollected(validators: seq<Validator>, envelope: Json)
    ensures CollectWarnings(validators, Supports, Validate, envelope) == []
    decreases |validators|
  {
    if |validators| > 0 {
      NothingCollected(validators[1..], envelope);
    }
  }

  /** `ValidatorChain(validators).validate(envelope)`: the result of the first
      validator that denies, or an allowance without warnings. */
  function Chain(validators: seq<Validator>, envelope: Json): (r: ValidationResult)
    ensures r.warnings == None
    ensures r.allowed ==> r == Allowed
    ensures r.allowed <==> forall i :: 0 <= i < |validators| ==> !Denies(Supports, Validate, validators[i], envelope)
  {
    var r := ValidatorChain(validators, Supports, Validate, envelope);
    if r.allowed then
      ChainGathersWarnings(validators, Supports, Validate, envelope);
      NothingCollected(validators, envelope);
      r
    else r
  }

  /** The chain of a request whose kind is neither Pod nor Deployment
      allows it: every validator skips it. */
  lemma UnsupportedKindPasses(validators: seq<Validator>, envelope: Json)
    requires !EnvelopeSupported(envelope)
    ensures Chain(validators, envelope) == Allowed
  {
  }
}
